=== FILE: README.md ===
# Sales bonus report — a Dafny model

This project models `analyzeSalesData` of the sales-bonus repository
(`src/main.js`), a batch routine that turns raw sales data (sellers,
product cards, purchase records with their lines) into a per-seller
report: revenue, profit, number of sales, the ten products sold most
often, and a bonus that depends on the seller's rank by profit.

Modules, one per part of the routine:

- `Wrappers` — `Option`, `Result`, `Outcome` for absent values and thrown errors.
- `Model` — the entities: `SellerInput`, `Product`, `PurchaseLine`, `PurchaseRecord`,
  the running `SellerStats`, the output `Report`, and the `Error` kinds.
- `Validation` — `isValidPercent`, `isNotNegative`, `calculateSubtotal`,
  `validatePurchase`, `calculateSimpleRevenue`, `calculateSimpleProfit`.
  Money and a line's quantity are `real`, so fractional and negative quantities are inputs, as the code accepts any number.
- `Sorting` — `sortHelper` with order `desc` as used by `sorting`/`toSorting`/`sortByProfit`:
  a stable insertion sort by a real key, largest first, proved sorted, a permutation and stable.
- `Bonus` — `calculateBonusByProfit`.
- `TopProducts` — the `products_sold` object (a list of (sku, count) entries in the order the
  skus were first sold, which is the order `Object.entries` returns) and `getSellerTopProducts`.
- `Indexing` — the two `Object.fromEntries` tables, where a repeated key keeps its last entry.
- `Aggregation` — the pass over the purchase records, as a left fold that stops at the first
  invalid line, with reference sums (`RecordCount`, `AmountTotal`, `ProfitTotal`, `SkuCount`)
  that say what each seller's totals must be.
- `Analysis` — input and option checks, ranking, bonuses, top products and the output records.
- `ReportProperties` — what a successful report says about the input.
- `WorkedExample` — one seller, one receipt, computed through the whole routine.

The caller's strategies are function values: `calculateBonus` is a
`(rank, total, seller) -> real` function and is applied as the code
applies it; `calculateRevenue` is only checked for presence, because the
code checks it but computes each line's profit with
`calculateSimpleProfit` (src/main.js:174) and never calls it.

`isValidPercent` and `isNotNegative` (src/main.js:6 and 13) are `Validation.IsValidPercent`
and `Validation.IsNotNegative`; the `Validation.ValidatePurchase` row states them.
The output record of a ranked seller (src/main.js:196-204) is `Analysis.ToReport`, and the
mapping of the ranked sellers with the bonus of each rank (src/main.js:191-194) is
`Analysis.ReportRanked`; the `Analysis.RankAndReport` row and the rows of
`ReportProperties` are stated through them.

Behaviour of the code that is easy to misread:

- `products_sold[sku]` grows by one per purchase line (src/main.js:183), not by the line's quantity.
  `WorkedExample.OneSellerOneLine` shows a line of two units counted once.
- A seller's revenue is the sum of the records' `total_amount` (src/main.js:170), not of computed line revenues.
- An `options` value that is not an object raises the same error as missing data (src/main.js:142),
  before the options' fields are looked at.

## Model

| member | source | states |
|---|---|---|
| Validation.Subtotal | src/main.js:20-25 | fails with the discount error exactly when the discount is outside [0, 100]; otherwise the multiplier lies in [0, 1], is 1 at 0% and 0 at 100%, and the discount is recovered from it as 100·(1 − multiplier) |
| Validation.ValidatePurchase | src/main.js:32-43 | passes exactly when discount ∈ [0, 100], sale price ≥ 0 and quantity ≥ 0; when several checks fail, the discount error wins over the sale-price error, which wins over the quantity error |
| Validation.SimpleRevenue | src/main.js:76-86 | fails exactly when the line fails validation, with the validation's error; otherwise the revenue is the gross price minus the discount share of it and lies between 0 and sale price × quantity |
| Validation.SimpleProfit | src/main.js:94-102 | fails exactly when the line fails validation; otherwise profit plus purchase cost equals the line's revenue, profit equals the closed-form margin, and it is at most (sale price − purchase price) × quantity |
| Sorting.Insert | src/main.js:45-56 | inserting into a sequence sorted by descending key keeps it sorted and adds exactly the one element |
| Sorting.SortDesc | src/main.js:58-68 | the result is sorted by descending key and is a permutation of the input |
| Sorting.SortDescIsStable | src/main.js:58-64 | for every key value, the elements with that key appear in the result in their input order |
| Sorting.SortDescMapped | src/main.js:66-68 | any projection of the sorted sequence (for example the seller ids) is a permutation of the same projection of the input |
| Sorting.SplitSorted | src/main.js:132 | cutting a sorted sequence keeps the kept part sorted, and no cut-off element has a larger key than the last kept one |
| Bonus.BonusByProfit | src/main.js:111-123 | rank 0 earns 15% of profit, ranks 1 and 2 earn 10%, a last rank beyond the first three earns 0 and every other rank 5%; a rank among the first three is never given the last-place rule |
| Bonus.BonusNonIncreasing | src/main.js:111-123 | with non-negative profits in descending order, a better rank never earns a smaller bonus |
| TopProducts.Bump | src/main.js:179-183 | the count of the sold sku grows by one and every other count stays; a new sku is appended after the existing keys, whose order is kept |
| TopProducts.BumpKeepsInvariant | src/main.js:179-183 | keys stay distinct and every stored count stays positive |
| TopProducts.Top | src/main.js:125-133 | at most ten entries (exactly min(10, n)), ordered by count descending, a prefix of the full descending order, drawn from the seller's entries; any entry left out has a count no larger than the tenth kept one |
| TopProducts.TopKeepsInvariant | src/main.js:125-133 | the kept entries of a `products_sold` with distinct skus and positive counts again have distinct skus and positive counts: no sku twice, none unsold |
| TopProducts.TopEntriesAreCounts | src/main.js:125-133 | every kept entry carries the full count of its sku |
| TopProducts.TopIsComplete | src/main.js:125-133 | a sku with a positive count is missing only from a full list, and only when it sold no more than the last kept entry |
| Indexing.LastIndexBy | src/main.js:159 | the index has exactly the keys of the sequence, maps each to a position holding that key, and no later position holds it (the last entry wins) |
| Indexing.LastIndexOfDistinct | src/main.js:159 | with distinct keys each element is found at its own position |
| Indexing.ProductIndex | src/main.js:160 | the sku table has exactly the skus of the product list, each mapped to a product card with that sku from the list, the last one when a sku repeats |
| Aggregation.ValidateLines | src/main.js:172-174 | passes exactly when every line is well formed; otherwise reports the validation error of the first ill-formed line |
| Aggregation.ValidateRecords | src/main.js:163-185 | passes exactly when every record's lines pass; otherwise reports the first failing record's first error |
| Aggregation.ApplyItems | src/main.js:172-184 | fails exactly when some line is invalid, with the first line's error; otherwise adds the sum of the line profits to profit, one to the count of each line's sku, and changes nothing else |
| Aggregation.ApplyItemsKeepsInvariant | src/main.js:179-183 | per-line processing keeps the sold skus distinct and their counts positive |
| Aggregation.ApplyRecord | src/main.js:164-184 | fails exactly when one of the record's lines is invalid; otherwise changes only the slot the seller index names for the record's seller, and keeps every slot's id |
| Aggregation.ApplyRecordAccounts | src/main.js:164-184 | the changed slot gains one sale, the record's total amount, its line profits and one count per line |
| Aggregation.Aggregate | src/main.js:163-185 | fails exactly when some line of some record is invalid, with the first such error in record and line order; otherwise keeps the number of slots and their ids |
| Aggregation.AggregateAccounts | src/main.js:163-185 | after the pass, the slot an id's index entry names holds that id's record count, sum of total amounts, sum of line profits and per-sku line counts; a duplicate slot of the same id keeps its initial values |
| Analysis.StartIndexed | src/main.js:151-159 | the seller index over the fresh statistics knows exactly the input seller ids and points each at a slot with that id |
| Analysis.Aggregated | src/main.js:151-185 | the pass fails exactly when some line is invalid, with the first error; otherwise it yields one statistics slot per input seller, with the input ids in input order |
| Analysis.RankAndReport | src/main.js:187-204 | one record per aggregated seller, profits non-increasing, seller ids a permutation of the aggregated ones, the records with bonuses cleared a permutation of the aggregated sellers' records (each slot reported exactly once, even when ids repeat), and each record is some aggregated seller's with the strategy's bonus for its rank |
| Analysis.RankedReportRecords | src/main.js:187-204 | bonus aside, the ranked records are exactly the aggregated sellers' records, each slot once, because the slots themselves are sorted |
| Analysis.RankedReportSources | src/main.js:191-192 | the record at each rank is the projection of an aggregated seller, with the bonus the strategy gives that seller at that rank out of all sellers |
| Analysis.Run | src/main.js:151-204 | after the checks: fails exactly when some line is invalid, with the first error; otherwise one record per input seller, ids a permutation of the input ids, bonus aside the records a permutation of the aggregated sellers' records, profits non-increasing |
| Analysis.Analyze | src/main.js:141-205 | missing data, non-array or empty sellers, or non-object options give the input error; a missing strategy gives the options error (both checks hold for any records, known or not); otherwise the error is the first invalid line's; a report has one record per seller, ids a permutation of the sellers' ids, bonus aside the records a permutation of the aggregated sellers' records, profits non-increasing |
| ReportProperties.AnalyzeAccounts | src/main.js:151-204 | for a run that gets past every check, with distinct seller ids, each output record's sales count, revenue and profit are the totals over exactly its seller's records, and its top products carry per-line counts, have distinct skus each sold at least once, are sorted, at most ten, and miss only products that sold no more than the tenth |
| ReportProperties.AnalyzeUnsoldSeller | src/main.js:151-176 | for a run that gets past every check, with distinct seller ids, a seller that no purchase record names is reported with zero sales, zero revenue, zero profit and no top products |
| ReportProperties.AnalyzeBonus | src/main.js:191-192 | each output record's bonus is the caller's strategy applied to the record's rank, the number of sellers and that seller's statistics |
| ReportProperties.AnalyzeDefaultBonus | src/main.js:111-123 | with the default strategy the report's bonuses follow the four tiers by rank, and with non-negative profits they never increase down the ranking |
| ReportProperties.RankedDefaultTiers | src/main.js:191-192 | every record of a ranking gets the default tier of its rank under `calculateBonusByProfit` |
| ReportProperties.RankedDefaultOrdered | src/main.js:188-192 | along a ranking sorted by profit with no negative profit, the default bonuses never increase |
| ReportProperties.AnalyzeTiesInInputOrder | src/main.js:187-188 | the ranking sort is stable: the records of any one profit, bonus aside, are exactly the aggregated sellers with that profit, in the order the sellers were given |
| WorkedExample.OneSellerOneLine | src/main.js:141-205 | one seller selling two units bought at 10 for 20 on a receipt of 40 gets revenue 40, profit 20, one sale, bonus 3 and the product counted once |
| WorkedExample.EmptySellersWithRecords | src/main.js:142-143 | an empty seller list gives the input error even when a record names a seller that does not exist |
| WorkedExample.MissingStrategyWithUnknownSeller | src/main.js:147-148 | missing strategies give the options error before any record is looked at, even one naming an unknown seller |

## Left out

- JavaScript `undefined` aggregates: a seller without records has `undefined` sales count, revenue and
  profit in the code, and one whose records have no lines has `undefined` profit (src/main.js:166, 169, 176);
  the model starts every seller at 0, and `ReportProperties.AnalyzeUnsoldSeller` states the resulting zero record.
  NaN, which the same guards would reset to 0, is not modelled.
- Floating point: money is `real`, so IEEE-754 rounding is not modelled.
- Analysis.Analyze: once the input and options checks pass, requires every record's `seller_id` and every
  line's `sku` to be known (`ReferencesKnown`). The code crashes with a type error at the first missing index
  entry (src/main.js:164, 173), which is not modelled; runs with an unknown reference are left out as a whole,
  including those where an invalid line comes earlier and the code throws that line's validation error first.
- `products` and `purchase_records` that are not arrays: the code does not check them; they are sequences here.
- `Object.entries` lists integer-like keys first in ascending order; skus are enumerated in first-sale order here.
- Skus that are `Object.prototype` property names: `products_sold` starts as `{}` (src/main.js:155), so for a sku
  such as `constructor` or `toString` the inherited value is truthy and `+= 1` yields a string, and a `__proto__`
  sku is never stored (src/main.js:179-183); the model counts every sku as an ordinary key.
- Error message texts: each error is a constructor carrying the offending value; the message strings are not modelled.
- The `asc` order of `sortHelper`: no caller in the core uses it.
- The implicit global `orders` (src/main.js:50) and the in-place versus copying distinction of `sort`/`toSorted`:
  sorting is a pure function.
- A caller's `calculateBonus` that throws or is impure: strategies are total pure functions.
- `options` equal to `null`: `typeof null` is `"object"`, so the code passes the check at src/main.js:142 and then fails on destructuring; the model reports it as the input error, as for any non-object `options`.
- ReportProperties.AnalyzeAccounts: stated only for distinct seller ids, because with a repeated id the earlier
  duplicate keeps zero totals (this case is stated per slot by `Aggregation.AggregateAccounts`).
- ReportProperties.AnalyzeDefaultBonus: stated for the default strategy `calculateBonusByProfit` only;
  `ReportProperties.AnalyzeBonus` covers any strategy.

=== FILE: aggregation.dfy ===
/**
 * The single pass over the purchase records of `analyzeSalesData`: each
 * record adds one sale and its total amount to its seller, and each of
 * its lines adds the line's profit and one unit to the seller's count for
 * the line's sku. The pass stops at the first line that fails validation.
 */
module Aggregation {
  import opened Wrappers
  import opened Model
  import opened Validation
  import opened TopProducts

  /** A seller's statistics before any record is seen; the name joins first and last name. */
  function InitialStats(seller: SellerInput): (r: SellerStats)
    ensures r.id == seller.id && r.salesCount == 0 && r.revenue == 0.0 && r.profit == 0.0
    ensures r.productsSold == []
  {
    SellerStats(seller.id, seller.firstName + " " + seller.lastName, 0, 0.0, 0.0, [])
  }

  /** A first failing line of the tail, behind a well-formed head, is a first failing line of the whole. */
  lemma FirstFailingLineShifts(items: seq<PurchaseLine>, r: Outcome<Error>)
    requires |items| > 0 && WellFormedLine(items[0])
    requires r.Fail? ==> exists i :: 0 <= i < |items[1..]| && ValidatePurchase(items[1..][i]) == r
                                     && forall j :: 0 <= j < i ==> WellFormedLine(items[1..][j])
    ensures r.Fail? ==> exists i :: 0 <= i < |items| && ValidatePurchase(items[i]) == r
                                    && forall j :: 0 <= j < i ==> WellFormedLine(items[j])
  {
    if r.Fail? {
      var i :| 0 <= i < |items[1..]| && ValidatePurchase(items[1..][i]) == r
               && forall j :: 0 <= j < i ==> WellFormedLine(items[1..][j]);
      assert ValidatePurchase(items[i + 1]) == r;
      forall j | 0 <= j < i + 1 ensures WellFormedLine(items[j]) {
        if j > 0 {
          assert items[j] == items[1..][j - 1];
        }
      }
    }
  }

  /** A first failing record of the tail, behind a valid head, is a first failing record of the whole. */
  lemma FirstFailingRecordShifts(records: seq<PurchaseRecord>, r: Outcome<Error>)
    requires |records| > 0 && ValidateLines(records[0].items).Pass?
    requires r.Fail? ==> exists i :: 0 <= i < |records[1..]| && ValidateLines(records[1..][i].items) == r
                                     && forall j :: 0 <= j < i ==> ValidateLines(records[1..][j].items).Pass?
    ensures r.Fail? ==> exists i :: 0 <= i < |records| && ValidateLines(records[i].items) == r
                                    && forall j :: 0 <= j < i ==> ValidateLines(records[j].items).Pass?
  {
    if r.Fail? {
      var i :| 0 <= i < |records[1..]| && ValidateLines(records[1..][i].items) == r
               && forall j :: 0 <= j < i ==> ValidateLines(records[1..][j].items).Pass?;
      assert ValidateLines(records[i + 1].items) == r;
      forall j | 0 <= j < i + 1 ensures ValidateLines(records[j].items).Pass? {
        if j > 0 {
          assert records[j] == records[1..][j - 1];
        }
      }
    }
  }

  /** The first failing validation among the lines, in order. */
  function ValidateLines(items: seq<PurchaseLine>): (r: Outcome<Error>)
    ensures r.Pass? <==> forall i :: 0 <= i < |items| ==> WellFormedLine(items[i])
    ensures r.Fail? ==> exists i :: 0 <= i < |items| && ValidatePurchase(items[i]) == r
                                    && forall j :: 0 <= j < i ==> WellFormedLine(items[j])
  {
    if |items| == 0 then Pass
    else match ValidatePurchase(items[0])
      case Fail(e) => Fail(e)
      case Pass =>
        var r := ValidateLines(items[1..]);
        FirstFailingLineShifts(items, r);
        r
  }

  /** The first failing validation among all lines of all records, in order. */
  function ValidateRecords(records: seq<PurchaseRecord>): (r: Outcome<Error>)
    ensures r.Pass? <==> forall i :: 0 <= i < |records| ==> ValidateLines(records[i].items).Pass?
    ensures r.Fail? ==> exists i :: 0 <= i < |records| && ValidateLines(records[i].items) == r
                                    && forall j :: 0 <= j < i ==> ValidateLines(records[j].items).Pass?
  {
    if |records| == 0 then Pass
    else match ValidateLines(records[0].items)
      case Fail(e) => Fail(e)
      case Pass =>
        var r := ValidateRecords(records[1..]);
        FirstFailingRecordShifts(records, r);
        r
  }

  ghost predicate ItemsKnown(items: seq<PurchaseLine>, products: map<string, Product>) {
    forall i :: 0 <= i < |items| ==> items[i].sku in products
  }

  ghost predicate RecordsKnown(records: seq<PurchaseRecord>, products: map<string, Product>) {
    forall i :: 0 <= i < |records| ==> ItemsKnown(records[i].items, products)
  }

  /** Number of lines selling `sku`. */
  ghost function SkuLines(items: seq<PurchaseLine>, sku: string): nat {
    if |items| == 0 then 0
    else (if items[0].sku == sku then 1 else 0) + SkuLines(items[1..], sku)
  }

  /** Sum of the closed-form profits of the lines. */
  ghost function MarginSum(items: seq<PurchaseLine>, products: map<string, Product>): real
    requires ItemsKnown(items, products)
  {
    if |items| == 0 then 0.0
    else LineMargin(items[0], products[items[0].sku]) + MarginSum(items[1..], products)
  }

  /** Number of records of seller `id`. */
  ghost function RecordCount(records: seq<PurchaseRecord>, id: string): nat {
    if |records| == 0 then 0
    else (if records[0].sellerId == id then 1 else 0) + RecordCount(records[1..], id)
  }

  /** Sum of the total amounts of the records of seller `id`. */
  ghost function AmountTotal(records: seq<PurchaseRecord>, id: string): real {
    if |records| == 0 then 0.0
    else (if records[0].sellerId == id then records[0].totalAmount else 0.0) + AmountTotal(records[1..], id)
  }

  /** Sum of the line profits over the records of seller `id`. */
  ghost function ProfitTotal(records: seq<PurchaseRecord>, id: string, products: map<string, Product>): real
    requires RecordsKnown(records, products)
  {
    if |records| == 0 then 0.0
    else (if records[0].sellerId == id then MarginSum(records[0].items, products) else 0.0)
         + ProfitTotal(records[1..], id, products)
  }

  /** Number of lines selling `sku` over the records of seller `id`. */
  ghost function SkuCount(records: seq<PurchaseRecord>, id: string, sku: string): nat {
    if |records| == 0 then 0
    else (if records[0].sellerId == id then SkuLines(records[0].items, sku) else 0)
         + SkuCount(records[1..], id, sku)
  }

  /** The per-line part of one record: profit added, one unit counted per line. */
  function ApplyItems(st: SellerStats, items: seq<PurchaseLine>, products: map<string, Product>): (r: Result<SellerStats, Error>)
    requires ItemsKnown(items, products)
    ensures r.Success? <==> ValidateLines(items).Pass?
    ensures r.Failure? ==> ValidateLines(items) == Fail(r.error)
    ensures r.Success? ==> r.value.(profit := st.profit, productsSold := st.productsSold) == st
    ensures r.Success? ==> r.value.profit == st.profit + MarginSum(items, products)
    ensures r.Success? ==> forall k :: CountOf(r.value.productsSold, k) == CountOf(st.productsSold, k) + SkuLines(items, k)
    ensures r.Success? ==> r.value.productsSold == BumpLines(st.productsSold, items)
    decreases |items|
  {
    if |items| == 0 then Success(st)
    else
      var item := items[0];
      match SimpleProfit(item, products[item.sku])
      case Failure(e) => Failure(e)
      case Success(profit) =>
        var next := st.(profit := st.profit + profit, productsSold := Bump(st.productsSold, item.sku));
        ApplyItems(next, items[1..], products)
  }

  /** The counts after one increment per line, in line order. */
  function BumpLines(sold: seq<ProductCount>, items: seq<PurchaseLine>): seq<ProductCount>
    decreases |items|
  {
    if |items| == 0 then sold else BumpLines(Bump(sold, items[0].sku), items[1..])
  }

  lemma {:induction false} BumpLinesKeepsInvariant(sold: seq<ProductCount>, items: seq<PurchaseLine>)
    requires DistinctSkus(sold) && AllPositive(sold)
    ensures DistinctSkus(BumpLines(sold, items)) && AllPositive(BumpLines(sold, items))
    decreases |items|
  {
    if |items| > 0 {
      BumpKeepsInvariant(sold, items[0].sku);
      BumpLinesKeepsInvariant(Bump(sold, items[0].sku), items[1..]);
    }
  }

  /** Per-line processing keeps the keys of `products_sold` distinct and their counts positive. */
  lemma ApplyItemsKeepsInvariant(st: SellerStats, items: seq<PurchaseLine>, products: map<string, Product>)
    requires ItemsKnown(items, products)
    requires ApplyItems(st, items, products).Success?
    requires DistinctSkus(st.productsSold) && AllPositive(st.productsSold)
    ensures DistinctSkus(ApplyItems(st, items, products).value.productsSold)
    ensures AllPositive(ApplyItems(st, items, products).value.productsSold)
  {
    BumpLinesKeepsInvariant(st.productsSold, items);
  }

  /** The seller index points every id at a statistics slot with that id, and knows every slot's id. */
  ghost predicate Indexed(stats: seq<SellerStats>, sellerIndex: map<string, nat>) {
    && (forall id :: id in sellerIndex ==> sellerIndex[id] < |stats| && stats[sellerIndex[id]].id == id)
    && (forall i :: 0 <= i < |stats| ==> stats[i].id in sellerIndex)
  }

  ghost predicate SellersKnown(records: seq<PurchaseRecord>, sellerIndex: map<string, nat>) {
    forall i :: 0 <= i < |records| ==> records[i].sellerId in sellerIndex
  }

  /** One record: one more sale and its total amount for the seller, then its lines. */
  function ApplyRecord(stats: seq<SellerStats>, sellerIndex: map<string, nat>, products: map<string, Product>,
                       rec: PurchaseRecord): (r: Result<seq<SellerStats>, Error>)
    requires Indexed(stats, sellerIndex)
    requires rec.sellerId in sellerIndex
    requires ItemsKnown(rec.items, products)
    ensures r.Success? <==> ValidateLines(rec.items).Pass?
    ensures r.Failure? ==> ValidateLines(rec.items) == Fail(r.error)
    ensures r.Success? ==> |r.value| == |stats| && Indexed(r.value, sellerIndex)
    ensures r.Success? ==> forall i :: 0 <= i < |stats| && i != sellerIndex[rec.sellerId] ==> r.value[i] == stats[i]
    ensures r.Success? ==> forall i :: 0 <= i < |stats| ==> r.value[i].id == stats[i].id
  {
    var k := sellerIndex[rec.sellerId];
    var seller := stats[k];
    var counted := seller.(salesCount := seller.salesCount + 1, revenue := seller.revenue + rec.totalAmount);
    match ApplyItems(counted, rec.items, products)
    case Failure(e) => Failure(e)
    case Success(updated) => Success(stats[k := updated])
  }

  /** The whole pass over the records, in order; the first invalid line aborts it. */
  function Aggregate(stats: seq<SellerStats>, sellerIndex: map<string, nat>, products: map<string, Product>,
                     records: seq<PurchaseRecord>): (r: Result<seq<SellerStats>, Error>)
    requires Indexed(stats, sellerIndex)
    requires SellersKnown(records, sellerIndex)
    requires RecordsKnown(records, products)
    ensures r.Success? <==> ValidateRecords(records).Pass?
    ensures r.Failure? ==> ValidateRecords(records) == Fail(r.error)
    ensures r.Success? ==> |r.value| == |stats| && Indexed(r.value, sellerIndex)
    ensures r.Success? ==> forall i :: 0 <= i < |stats| ==> r.value[i].id == stats[i].id
    decreases |records|
  {
    if |records| == 0 then Success(stats)
    else match ApplyRecord(stats, sellerIndex, products, records[0])
      case Failure(e) => Failure(e)
      case Success(next) => Aggregate(next, sellerIndex, products, records[1..])
  }

  /** `after` is `before` with the contribution of the records of its seller added in. */
  ghost predicate Accumulated(before: SellerStats, after: SellerStats, records: seq<PurchaseRecord>,
                              products: map<string, Product>)
    requires RecordsKnown(records, products)
  {
    && after.id == before.id
    && after.name == before.name
    && after.salesCount == before.salesCount + RecordCount(records, before.id)
    && after.revenue == before.revenue + AmountTotal(records, before.id)
    && after.profit == before.profit + ProfitTotal(records, before.id, products)
    && (forall k :: CountOf(after.productsSold, k) == CountOf(before.productsSold, k) + SkuCount(records, before.id, k))
    && (DistinctSkus(before.productsSold) && AllPositive(before.productsSold) ==>
          DistinctSkus(after.productsSold) && AllPositive(after.productsSold))
  }

  /** The totals over a single record of seller `rec.sellerId`. */
  lemma SingleRecordTotals(rec: PurchaseRecord, products: map<string, Product>)
    requires ItemsKnown(rec.items, products)
    ensures RecordsKnown([rec], products)
    ensures RecordCount([rec], rec.sellerId) == 1
    ensures AmountTotal([rec], rec.sellerId) == rec.totalAmount
    ensures ProfitTotal([rec], rec.sellerId, products) == MarginSum(rec.items, products)
    ensures forall k :: SkuCount([rec], rec.sellerId, k) == SkuLines(rec.items, k)
  {
    assert [rec][1..] == [];
  }

  /** A record changes exactly the slot of its seller, by its own contribution. */
  lemma ApplyRecordAccounts(stats: seq<SellerStats>, sellerIndex: map<string, nat>, products: map<string, Product>,
                            rec: PurchaseRecord)
    requires Indexed(stats, sellerIndex)
    requires rec.sellerId in sellerIndex
    requires ItemsKnown(rec.items, products)
    requires ApplyRecord(stats, sellerIndex, products, rec).Success?
    ensures RecordsKnown([rec], products)
    ensures Accumulated(stats[sellerIndex[rec.sellerId]], ApplyRecord(stats, sellerIndex, products, rec).value[sellerIndex[rec.sellerId]],
                        [rec], products)
  {
    var k := sellerIndex[rec.sellerId];
    var seller := stats[k];
    var counted := seller.(salesCount := seller.salesCount + 1, revenue := seller.revenue + rec.totalAmount);
    var updated := ApplyItems(counted, rec.items, products).value;
    assert ApplyRecord(stats, sellerIndex, products, rec).value[k] == updated;
    if DistinctSkus(counted.productsSold) && AllPositive(counted.productsSold) {
      ApplyItemsKeepsInvariant(counted, rec.items, products);
    }
    SingleRecordTotals(rec, products);
    assert seller.id == rec.sellerId;
    assert updated.id == seller.id && updated.name == seller.name;
    assert updated.salesCount == seller.salesCount + 1;
    assert updated.revenue == seller.revenue + rec.totalAmount;
    assert updated.profit == seller.profit + MarginSum(rec.items, products);
  }

  /** A record of another seller leaves the accumulated totals of `before` alone. */
  lemma AccumulatedSkip(before: SellerStats, after: SellerStats, records: seq<PurchaseRecord>, products: map<string, Product>)
    requires RecordsKnown(records, products)
    requires |records| > 0 && records[0].sellerId != before.id
    requires Accumulated(before, after, records[1..], products)
    ensures Accumulated(before, after, records, products)
  {
  }

  /** Accumulating the first record and then the rest is accumulating all of them. */
  lemma AccumulatedCompose(a: SellerStats, b: SellerStats, c: SellerStats, records: seq<PurchaseRecord>,
                           products: map<string, Product>)
    requires RecordsKnown(records, products)
    requires |records| > 0
    requires Accumulated(a, b, [records[0]], products)
    requires Accumulated(b, c, records[1..], products)
    ensures Accumulated(a, c, records, products)
  {
    var head := [records[0]];
    assert head[1..] == [];
    assert RecordCount(records, a.id) == RecordCount(head, a.id) + RecordCount(records[1..], a.id);
    assert AmountTotal(records, a.id) == AmountTotal(head, a.id) + AmountTotal(records[1..], a.id);
    assert ProfitTotal(records, a.id, products) == ProfitTotal(head, a.id, products) + ProfitTotal(records[1..], a.id, products);
    forall k ensures CountOf(c.productsSold, k) == CountOf(a.productsSold, k) + SkuCount(records, a.id, k) {
      assert SkuCount(records, a.id, k) == SkuCount(head, a.id, k) + SkuCount(records[1..], a.id, k);
    }
  }

  /**
   * One step of the pass: `next` is `stats` after the first record, and `out`
   * accounts, slot by slot, for the remaining records starting from `next`.
   */
  lemma AccountsStep(stats: seq<SellerStats>, next: seq<SellerStats>, out: seq<SellerStats>,
                     sellerIndex: map<string, nat>, records: seq<PurchaseRecord>, products: map<string, Product>)
    requires RecordsKnown(records, products) && |records| > 0
    requires Indexed(stats, sellerIndex) && records[0].sellerId in sellerIndex
    requires |next| == |stats| && |out| == |stats|
    requires forall i :: 0 <= i < |stats| ==> next[i].id == stats[i].id
    requires forall i :: 0 <= i < |stats| && i != sellerIndex[records[0].sellerId] ==> next[i] == stats[i]
    requires Accumulated(stats[sellerIndex[records[0].sellerId]], next[sellerIndex[records[0].sellerId]], [records[0]], products)
    requires forall i :: 0 <= i < |next| ==>
               if sellerIndex[next[i].id] == i then Accumulated(next[i], out[i], records[1..], products)
               else out[i] == next[i]
    ensures forall i :: 0 <= i < |stats| ==>
              if sellerIndex[stats[i].id] == i then Accumulated(stats[i], out[i], records, products)
              else out[i] == stats[i]
  {
    var k := sellerIndex[records[0].sellerId];
    forall i | 0 <= i < |stats|
      ensures if sellerIndex[stats[i].id] == i then Accumulated(stats[i], out[i], records, products)
              else out[i] == stats[i]
    {
      if i == k {
        AccumulatedCompose(stats[i], next[i], out[i], records, products);
      } else if sellerIndex[stats[i].id] == i {
        AccumulatedSkip(stats[i], out[i], records, products);
      }
    }
  }

  /**
   * After the pass, the slot the seller index points at for an id holds the
   * totals of exactly that id's records; any other slot with the same id
   * (a duplicate seller) keeps its initial values.
   */
  lemma {:induction false} AggregateAccounts(stats: seq<SellerStats>, sellerIndex: map<string, nat>,
                                             products: map<string, Product>, records: seq<PurchaseRecord>)
    requires Indexed(stats, sellerIndex)
    requires SellersKnown(records, sellerIndex)
    requires RecordsKnown(records, products)
    requires Aggregate(stats, sellerIndex, products, records).Success?
    ensures forall i :: 0 <= i < |stats| ==>
              if sellerIndex[stats[i].id] == i
              then Accumulated(stats[i], Aggregate(stats, sellerIndex, products, records).value[i], records, products)
              else Aggregate(stats, sellerIndex, products, records).value[i] == stats[i]
    decreases |records|
  {
    var out := Aggregate(stats, sellerIndex, products, records).value;
    if |records| == 0 {
      assert out == stats;
    } else {
      var rec := records[0];
      var k := sellerIndex[rec.sellerId];
      var next := ApplyRecord(stats, sellerIndex, products, rec).value;
      assert out == Aggregate(next, sellerIndex, products, records[1..]).value;
      ApplyRecordAccounts(stats, sellerIndex, products, rec);
      AggregateAccounts(next, sellerIndex, products, records[1..]);
      AccountsStep(stats, next, out, sellerIndex, records, products);
    }
  }
}

=== FILE: analysis.dfy ===
/**
 * `analyzeSalesData`: input and option checks, the aggregation pass, the
 * profit ranking, the bonus of each rank, the top products of each seller
 * and the projection onto the output records.
 */
module Analysis {
  import opened Wrappers
  import opened Model
  import opened Validation
  import opened Sorting
  import opened Bonus
  import opened TopProducts
  import opened Indexing
  import opened Aggregation

  /** `options.calculateRevenue`: required to be a function, but the pass computes line profit itself. */
  type RevenueStrategy = (PurchaseLine, Product) -> real

  /** `options.calculateBonus`: the bonus of the seller at a rank, given the number of sellers. */
  type BonusStrategy = (nat, nat, SellerStats) -> real

  /** The options object; `None` stands for a field that is not a function. */
  datatype Options = Options(calculateRevenue: Option<RevenueStrategy>, calculateBonus: Option<BonusStrategy>)

  /** The data object; `sellers` is `None` when it is not an array. */
  datatype SalesData = SalesData(sellers: Option<seq<SellerInput>>, products: seq<Product>,
                                 purchaseRecords: seq<PurchaseRecord>)

  function InputId(s: SellerInput): string { s.id }

  function ReportId(r: Report): string { r.sellerId }

  function ReportProfit(r: Report): real { r.profit }

  /** Every record names a known seller and every line a known product. */
  ghost predicate ReferencesKnown(d: SalesData) {
    d.sellers.Some? ==>
      && (forall i :: 0 <= i < |d.purchaseRecords| ==> d.purchaseRecords[i].sellerId in KeysOf(d.sellers.value, InputId))
      && (forall i, j :: 0 <= i < |d.purchaseRecords| && 0 <= j < |d.purchaseRecords[i].items| ==>
            d.purchaseRecords[i].items[j].sku in KeysOf(d.products, ProductSku))
  }

  ghost predicate DistinctIds(sellers: seq<SellerInput>) {
    forall i, j :: 0 <= i < j < |sellers| ==> sellers[i].id != sellers[j].id
  }

  /** The conditions under which the run throws before looking at the options' fields. */
  ghost predicate MalformedInput(data: Option<SalesData>, options: Option<Options>) {
    data.None? || data.value.sellers.None? || |data.value.sellers.value| == 0 || options.None?
  }

  /** The fresh statistics slots carry exactly the input sellers' ids. */
  lemma StartKeys(sellers: seq<SellerInput>, stats: seq<SellerStats>)
    requires stats == MapSeq(sellers, InitialStats)
    ensures KeysOf(stats, SellerId) == KeysOf(sellers, InputId)
  {
    forall k | k in KeysOf(sellers, InputId) ensures k in KeysOf(stats, SellerId) {
      var i :| 0 <= i < |sellers| && InputId(sellers[i]) == k;
      assert SellerId(stats[i]) == k;
    }
    forall k | k in KeysOf(stats, SellerId) ensures k in KeysOf(sellers, InputId) {
      var i :| 0 <= i < |stats| && SellerId(stats[i]) == k;
      assert InputId(sellers[i]) == k;
    }
  }

  /** The run gets past every check: well-formed input, both strategies present, every line valid. */
  ghost predicate Completes(data: Option<SalesData>, options: Option<Options>) {
    && !MalformedInput(data, options)
    && options.value.calculateRevenue.Some? && options.value.calculateBonus.Some?
    && ValidateRecords(data.value.purchaseRecords).Pass?
  }

  /** The statistics slots, one per input seller in input order, and the id index over them. */
  lemma StartIndexed(sellers: seq<SellerInput>)
    ensures Indexed(MapSeq(sellers, InitialStats), LastIndexBy(MapSeq(sellers, InitialStats), SellerId))
    ensures LastIndexBy(MapSeq(sellers, InitialStats), SellerId).Keys == KeysOf(sellers, InputId)
  {
    var stats := MapSeq(sellers, InitialStats);
    var idx := LastIndexBy(stats, SellerId);
    forall i | 0 <= i < |stats| ensures stats[i].id in idx {
      assert SellerId(stats[i]) in KeysOf(stats, SellerId);
    }
    StartKeys(sellers, stats);
  }

  /** The seller index, the product index and the references of the records fit together. */
  lemma AggregatedWellFormed(d: SalesData)
    requires d.sellers.Some? && ReferencesKnown(d)
    ensures Indexed(MapSeq(d.sellers.value, InitialStats), LastIndexBy(MapSeq(d.sellers.value, InitialStats), SellerId))
    ensures SellersKnown(d.purchaseRecords, LastIndexBy(MapSeq(d.sellers.value, InitialStats), SellerId))
    ensures RecordsKnown(d.purchaseRecords, ProductIndex(d.products))
  {
    StartIndexed(d.sellers.value);
  }

  /** The statistics after the pass over all records. */
  function Aggregated(d: SalesData): (r: Result<seq<SellerStats>, Error>)
    requires d.sellers.Some? && ReferencesKnown(d)
    ensures r.Success? <==> ValidateRecords(d.purchaseRecords).Pass?
    ensures r.Failure? ==> ValidateRecords(d.purchaseRecords) == Fail(r.error)
    ensures r.Success? ==> MapSeq(r.value, SellerId) == MapSeq(d.sellers.value, InputId)
    ensures r.Success? ==> |r.value| == |d.sellers.value|
  {
    var stats := MapSeq(d.sellers.value, InitialStats);
    var sellerIndex := LastIndexBy(stats, SellerId);
    AggregatedWellFormed(d);
    var r := Aggregate(stats, sellerIndex, ProductIndex(d.products), d.purchaseRecords);
    SameIds(stats, r, d.sellers.value);
    r
  }

  lemma SameIds(stats: seq<SellerStats>, r: Result<seq<SellerStats>, Error>, sellers: seq<SellerInput>)
    requires stats == MapSeq(sellers, InitialStats)
    requires r.Success? ==> |r.value| == |stats| && forall i :: 0 <= i < |stats| ==> r.value[i].id == stats[i].id
    ensures r.Success? ==> MapSeq(r.value, SellerId) == MapSeq(sellers, InputId)
  {
  }

  /** The output record of a ranked seller. */
  function ToReport(s: SellerStats, bonus: real): Report {
    Report(s.id, s.name, s.revenue, s.profit, s.salesCount, Top(s.productsSold), bonus)
  }

  /** Projects the ranked sellers onto output records, each with the bonus of its rank. */
  function ReportRanked(ranked: seq<SellerStats>, bonus: BonusStrategy): (r: seq<Report>)
    ensures |r| == |ranked|
    ensures forall i :: 0 <= i < |r| ==> r[i] == ToReport(ranked[i], bonus(i, |ranked|, ranked[i]))
  {
    seq(|ranked|, i requires 0 <= i < |ranked| => ToReport(ranked[i], bonus(i, |ranked|, ranked[i])))
  }

  /**
   * Ranks the sellers by profit, largest first (ties in input order), gives
   * each the bonus of its rank and projects it onto its output record.
   */
  function RankAndReport(agg: seq<SellerStats>, bonus: BonusStrategy): (r: seq<Report>)
    ensures |r| == |agg|
    ensures forall i, j :: 0 <= i < j < |r| ==> r[i].profit >= r[j].profit
    ensures multiset(MapSeq(r, ReportId)) == multiset(MapSeq(agg, SellerId))
    ensures multiset(MapSeq(r, WithoutBonus)) == multiset(MapSeq(agg, Unranked))
    ensures forall i: nat :: i < |r| ==> ReportOf(r[i], agg, bonus, i, |r|)
  {
    var ranked := SortDesc(agg, ProfitKey);
    var r := ReportRanked(ranked, bonus);
    RankedReportsOrdered(ranked, bonus);
    RankedReportIds(agg, bonus);
    RankedReportRecords(agg, bonus);
    RankedReportSources(agg, bonus);
    r
  }

  lemma RankedReportsOrdered(ranked: seq<SellerStats>, bonus: BonusStrategy)
    requires SortedDesc(ranked, ProfitKey)
    ensures forall i, j :: 0 <= i < j < |ranked| ==> ReportRanked(ranked, bonus)[i].profit >= ReportRanked(ranked, bonus)[j].profit
  {
    var r := ReportRanked(ranked, bonus);
    forall i, j | 0 <= i < j < |r| ensures r[i].profit >= r[j].profit {
      assert ProfitKey(ranked[i]) >= ProfitKey(ranked[j]);
    }
  }

  lemma RankedReportIds(agg: seq<SellerStats>, bonus: BonusStrategy)
    ensures multiset(MapSeq(ReportRanked(SortDesc(agg, ProfitKey), bonus), ReportId)) == multiset(MapSeq(agg, SellerId))
  {
    var ranked := SortDesc(agg, ProfitKey);
    SortDescMapped(agg, ProfitKey, SellerId);
    assert MapSeq(ReportRanked(ranked, bonus), ReportId) == MapSeq(ranked, SellerId);
  }

  /** An output record with its bonus cleared: everything the ranking does not decide. */
  function WithoutBonus(rep: Report): Report { rep.(bonus := 0.0) }

  /** The output record a seller's statistics give before any bonus is assigned. */
  function Unranked(s: SellerStats): Report { ToReport(s, 0.0) }

  /**
   * Bonus aside, the ranked records are the aggregated sellers' records,
   * each slot exactly once, even when two slots share an id.
   */
  lemma RankedReportRecords(agg: seq<SellerStats>, bonus: BonusStrategy)
    ensures multiset(MapSeq(ReportRanked(SortDesc(agg, ProfitKey), bonus), WithoutBonus)) == multiset(MapSeq(agg, Unranked))
  {
    var ranked := SortDesc(agg, ProfitKey);
    SortDescMapped(agg, ProfitKey, Unranked);
    assert MapSeq(ReportRanked(ranked, bonus), WithoutBonus) == MapSeq(ranked, Unranked);
  }

  /** `rep` is the output record of some seller of `agg` ranked at `rank` out of `total`. */
  ghost predicate ReportOf(rep: Report, agg: seq<SellerStats>, bonus: BonusStrategy, rank: nat, total: nat) {
    exists s :: s in agg && rep == ToReport(s, bonus(rank, total, s))
  }

  lemma RankedReportSources(agg: seq<SellerStats>, bonus: BonusStrategy)
    ensures forall i: nat :: i < |agg| ==> ReportOf(ReportRanked(SortDesc(agg, ProfitKey), bonus)[i], agg, bonus, i, |agg|)
  {
    var ranked := SortDesc(agg, ProfitKey);
    forall i: nat | i < |agg| ensures ReportOf(ReportRanked(ranked, bonus)[i], agg, bonus, i, |agg|) {
      var s := ranked[i];
      assert s in multiset(agg);
      assert ReportRanked(ranked, bonus)[i] == ToReport(s, bonus(i, |agg|, s));
    }
  }

  /** The whole report, or the error that aborts it. */
  function Analyze(data: Option<SalesData>, options: Option<Options>): (r: Result<seq<Report>, Error>)
    requires !MalformedInput(data, options) && options.value.calculateRevenue.Some? && options.value.calculateBonus.Some? ==>
             ReferencesKnown(data.value)
    ensures MalformedInput(data, options) ==> r == Failure(InvalidInput)
    ensures !MalformedInput(data, options)
              && (options.value.calculateRevenue.None? || options.value.calculateBonus.None?) ==>
              r == Failure(InvalidOptions)
    ensures !MalformedInput(data, options)
              && options.value.calculateRevenue.Some? && options.value.calculateBonus.Some? ==>
              && (r.Success? <==> ValidateRecords(data.value.purchaseRecords).Pass?)
              && (r.Failure? ==> ValidateRecords(data.value.purchaseRecords) == Fail(r.error))
    ensures r.Success? ==>
              && |r.value| == |data.value.sellers.value|
              && multiset(MapSeq(r.value, ReportId)) == multiset(MapSeq(data.value.sellers.value, InputId))
              && RecordsOfAggregated(r.value, data.value)
              && forall i, j :: 0 <= i < j < |r.value| ==> r.value[i].profit >= r.value[j].profit
  {
    if data.None? || data.value.sellers.None? || |data.value.sellers.value| == 0 || options.None? then
      Failure(InvalidInput)
    else if options.value.calculateRevenue.None? || options.value.calculateBonus.None? then
      Failure(InvalidOptions)
    else
      Run(data.value, options.value.calculateBonus.value)
  }

  /**
   * Bonus aside, the records are the aggregated sellers' records, each
   * aggregated slot reported exactly once.
   */
  ghost predicate RecordsOfAggregated(r: seq<Report>, d: SalesData) {
    && d.sellers.Some? && ReferencesKnown(d)
    && Aggregated(d).Success?
    && multiset(MapSeq(r, WithoutBonus)) == multiset(MapSeq(Aggregated(d).value, Unranked))
  }

  /** The part of the run after the checks: the aggregation pass, then the ranking. */
  function Run(d: SalesData, bonus: BonusStrategy): (r: Result<seq<Report>, Error>)
    requires d.sellers.Some? && ReferencesKnown(d)
    ensures r.Success? <==> ValidateRecords(d.purchaseRecords).Pass?
    ensures r.Failure? ==> ValidateRecords(d.purchaseRecords) == Fail(r.error)
    ensures r.Success? ==>
              && |r.value| == |d.sellers.value|
              && multiset(MapSeq(r.value, ReportId)) == multiset(MapSeq(d.sellers.value, InputId))
              && RecordsOfAggregated(r.value, d)
              && forall i, j :: 0 <= i < j < |r.value| ==> r.value[i].profit >= r.value[j].profit
  {
    match Aggregated(d)
    case Failure(e) => Failure(e)
    case Success(agg) =>
      RankedSellers(agg, d.sellers.value, bonus);
      Success(RankAndReport(agg, bonus))
  }

  /** The ranking of statistics that carry the input sellers' ids reports on exactly those sellers. */
  lemma RankedSellers(agg: seq<SellerStats>, sellers: seq<SellerInput>, bonus: BonusStrategy)
    requires MapSeq(agg, SellerId) == MapSeq(sellers, InputId)
    ensures |RankAndReport(agg, bonus)| == |sellers|
    ensures multiset(MapSeq(RankAndReport(agg, bonus), ReportId)) == multiset(MapSeq(sellers, InputId))
  {
  }

  /** The position in `agg` of the seller behind the output record of rank `i`. */
  lemma RankSource(agg: seq<SellerStats>, bonus: BonusStrategy, i: nat) returns (m: nat)
    requires i < |agg|
    ensures m < |agg|
    ensures RankAndReport(agg, bonus)[i] == ToReport(agg[m], bonus(i, |agg|, agg[m]))
  {
    var r := RankAndReport(agg, bonus);
    assert ReportOf(r[i], agg, bonus, i, |r|);
    var s :| s in agg && r[i] == ToReport(s, bonus(i, |r|, s));
    m :| m < |agg| && agg[m] == s;
  }
}

=== FILE: bonus.dfy ===
/** The default bonus strategy: a rate chosen from the seller's rank in the profit ranking. */
module Bonus {
  import opened Model

  /**
   * Rank 0 earns 15% of profit, ranks 1 and 2 earn 10%, the last rank earns
   * nothing and every other rank earns 5%. The rules are tried in that order,
   * so a rank among the first three is never treated as the last one.
   */
  function BonusByProfit(index: nat, total: nat, seller: SellerStats): (r: real)
    ensures index == 0 ==> r == 0.15 * seller.profit
    ensures (index == 1 || index == 2) ==> r == 0.10 * seller.profit
    ensures (index >= 3 && index + 1 == total) ==> r == 0.0
    ensures (index >= 3 && index + 1 != total) ==> r == 0.05 * seller.profit
  {
    var profit := seller.profit;
    if index == 0 then profit * 0.15
    else if index == 1 || index == 2 then profit * 0.1
    else if index == total - 1 then 0.0
    else profit * 0.05
  }

  /** With non-negative profits ranked in descending order, a better rank never earns a smaller bonus. */
  lemma BonusNonIncreasing(i: nat, j: nat, total: nat, a: SellerStats, b: SellerStats)
    requires i < j < total
    requires a.profit >= b.profit >= 0.0
    ensures BonusByProfit(i, total, a) >= BonusByProfit(j, total, b)
  {
    var ra := if i == 0 then 0.15 else if i <= 2 then 0.10 else if i + 1 == total then 0.0 else 0.05;
    var rb := if j == 0 then 0.15 else if j <= 2 then 0.10 else if j + 1 == total then 0.0 else 0.05;
    assert ra >= rb;
    assert BonusByProfit(i, total, a) == ra * a.profit;
    assert BonusByProfit(j, total, b) == rb * b.profit;
    assert ra * a.profit >= ra * b.profit;
  }
}

=== FILE: indexing.dfy ===
/**
 * The lookup tables built with `Object.fromEntries` before the aggregation
 * pass: seller id to seller, and sku to product. When a key occurs more
 * than once, the later entry overwrites the earlier one.
 */
module Indexing {
  import opened Model

  /** The keys occurring in `s`. */
  ghost function KeysOf<T>(s: seq<T>, key: T -> string): set<string> {
    set i | 0 <= i < |s| :: key(s[i])
  }

  /** The keys of a non-empty sequence: those of all but its last element, and the last element's. */
  lemma KeysOfSnoc<T>(s: seq<T>, key: T -> string)
    requires |s| > 0
    ensures KeysOf(s, key) == KeysOf(s[..|s| - 1], key) + {key(s[|s| - 1])}
  {
    var prefix := s[..|s| - 1];
    forall k | k in KeysOf(s, key) ensures k in KeysOf(prefix, key) + {key(s[|s| - 1])} {
      var i :| 0 <= i < |s| && key(s[i]) == k;
      if i < |s| - 1 {
        assert key(prefix[i]) == k;
      }
    }
    forall k | k in KeysOf(prefix, key) ensures k in KeysOf(s, key) {
      var i :| 0 <= i < |prefix| && key(prefix[i]) == k;
      assert key(s[i]) == k;
    }
  }

  /** `r` maps exactly the keys of `s`, each to the position of its last occurrence. */
  ghost predicate IsLastIndex<T>(s: seq<T>, key: T -> string, r: map<string, nat>) {
    && r.Keys == KeysOf(s, key)
    && (forall k :: k in r ==> r[k] < |s| && key(s[r[k]]) == k)
    && (forall k, j :: k in r && r[k] < j < |s| ==> key(s[j]) != k)
  }

  /** Extending the index of all but the last element by the last element's position. */
  lemma LastIndexStep<T>(s: seq<T>, key: T -> string, p: map<string, nat>)
    requires |s| > 0
    requires p.Keys == KeysOf(s[..|s| - 1], key)
    requires forall k :: k in p ==> p[k] < |s| - 1 && key(s[p[k]]) == k
    requires forall k, j :: k in p && p[k] < j < |s| - 1 ==> key(s[j]) != k
    ensures IsLastIndex(s, key, p[key(s[|s| - 1]) := |s| - 1])
  {
    KeysOfSnoc(s, key);
  }

  /** Maps every key of `s` to the position of its last occurrence. */
  function LastIndexBy<T>(s: seq<T>, key: T -> string): (r: map<string, nat>)
    ensures r.Keys == KeysOf(s, key)
    ensures forall k :: k in r ==> r[k] < |s| && key(s[r[k]]) == k
    ensures forall k, j :: k in r && r[k] < j < |s| ==> key(s[j]) != k
  {
    if |s| == 0 then map[]
    else
      var prefix := s[..|s| - 1];
      var p := LastIndexBy(prefix, key);
      LastIndexStep(s, key, p);
      p[key(s[|s| - 1]) := |s| - 1]
  }

  /** An element no later element shares its key with is the one the index names. */
  lemma LastOccurrence<T>(s: seq<T>, key: T -> string, idx: map<string, nat>, i: nat)
    requires IsLastIndex(s, key, idx)
    requires i < |s| && forall j :: i < j < |s| ==> key(s[j]) != key(s[i])
    ensures key(s[i]) in idx && idx[key(s[i])] == i
  {
    assert key(s[i]) in KeysOf(s, key);
  }

  /** With distinct keys every element is its key's last occurrence. */
  lemma LastIndexOfDistinct<T>(s: seq<T>, key: T -> string, i: nat)
    requires forall a, b :: 0 <= a < b < |s| ==> key(s[a]) != key(s[b])
    requires i < |s|
    ensures key(s[i]) in LastIndexBy(s, key) && LastIndexBy(s, key)[key(s[i])] == i
  {
    var r := LastIndexBy(s, key);
    assert key(s[i]) in KeysOf(s, key);
  }

  /** The sku to product table; a repeated sku keeps the last product card. */
  function ProductIndex(products: seq<Product>): (r: map<string, Product>)
    ensures r.Keys == KeysOf(products, ProductSku)
    ensures forall k :: k in r ==> r[k].sku == k && r[k] in products
    ensures forall i :: 0 <= i < |products| && (forall j :: i < j < |products| ==> products[j].sku != products[i].sku)
              ==> r[products[i].sku] == products[i]
  {
    var idx := LastIndexBy(products, ProductSku);
    var r := map k | k in idx :: products[idx[k]];
    assert IsLastIndex(products, ProductSku, idx);
    assert r.Keys == idx.Keys;
    assert forall i :: 0 <= i < |products| && (forall j :: i < j < |products| ==> products[j].sku != products[i].sku)
             ==> r[products[i].sku] == products[i] by {
      forall i | 0 <= i < |products| && (forall j :: i < j < |products| ==> products[j].sku != products[i].sku)
        ensures r[products[i].sku] == products[i]
      {
        LastOccurrence(products, ProductSku, idx, i);
      }
    }
    r
  }
}

=== FILE: model.dfy ===
/**
 * The entities of the sales report: the input data (sellers, products,
 * purchase records and their lines), the per-seller accumulator built
 * during aggregation, the output record, and the errors the run can throw.
 */
module Model {

  /** A seller as given in the input data. */
  datatype SellerInput = SellerInput(id: string, firstName: string, lastName: string)

  /** A product card; only the sku and the purchase price take part in the report. */
  datatype Product = Product(sku: string, purchasePrice: real)

  /** One line of a purchase record: a product sold at a price with a discount in percent. */
  datatype PurchaseLine = PurchaseLine(sku: string, discount: real, salePrice: real, quantity: real)

  /** One purchase record (a receipt) of a seller. */
  datatype PurchaseRecord = PurchaseRecord(sellerId: string, totalAmount: real, items: seq<PurchaseLine>)

  /** One entry of a seller's `products_sold` object, and of the `top_products` list. */
  datatype ProductCount = ProductCount(sku: string, quantity: nat)

  /**
   * The running statistics of one seller. `productsSold` lists the entries
   * in the order their skus were first sold, which is the order in which a
   * JavaScript object enumerates its (non-numeric) keys.
   */
  datatype SellerStats = SellerStats(
    id: string,
    name: string,
    salesCount: nat,
    revenue: real,
    profit: real,
    productsSold: seq<ProductCount>)

  /** The output record of one seller. */
  datatype Report = Report(
    sellerId: string,
    name: string,
    revenue: real,
    profit: real,
    salesCount: nat,
    topProducts: seq<ProductCount>,
    bonus: real)

  /** The errors the report can throw; each aborts the whole run. */
  datatype Error =
    | InvalidInput
    | InvalidOptions
    | InvalidDiscount(discount: real)
    | InvalidSalePrice(salePrice: real)
    | InvalidQuantity(quantity: real)

  function SellerId(s: SellerStats): string { s.id }

  function ProductSku(p: Product): string { p.sku }

  /** Sort key of the ranking: the accumulated profit. */
  function ProfitKey(s: SellerStats): real { s.profit }

  /** Sort key of the top products: the sold count. */
  function QuantityKey(p: ProductCount): real { p.quantity as real }
}

=== FILE: report_properties.dfy ===
/**
 * What the finished report says about the input: per-seller totals,
 * top products, the bonus of each rank, and a worked example.
 */
module ReportProperties {
  import opened Wrappers
  import opened Model
  import opened Sorting
  import opened Bonus
  import opened TopProducts
  import opened Indexing
  import opened Aggregation
  import opened Analysis

  /**
   * `rep` reports exactly the records of its seller: one sale per record,
   * the sum of their total amounts, the sum of their line profits, and for
   * every kept product the number of lines selling it; a sold product is
   * missing from the top list only when the list is full and the product
   * sold no more lines than the last entry kept.
   */
  ghost predicate AccountsFor(rep: Report, records: seq<PurchaseRecord>, products: map<string, Product>)
    requires RecordsKnown(records, products)
  {
    && rep.salesCount == RecordCount(records, rep.sellerId)
    && rep.revenue == AmountTotal(records, rep.sellerId)
    && rep.profit == ProfitTotal(records, rep.sellerId, products)
    && |rep.topProducts| <= TopCount
    && SortedDesc(rep.topProducts, QuantityKey)
    && DistinctSkus(rep.topProducts) && AllPositive(rep.topProducts)
    && (forall e :: e in rep.topProducts ==> e.quantity == SkuCount(records, rep.sellerId, e.sku))
    && (forall sku :: SkuCount(records, rep.sellerId, sku) > 0 && sku !in Skus(rep.topProducts) ==>
          |rep.topProducts| == TopCount && SkuCount(records, rep.sellerId, sku) <= rep.topProducts[TopCount - 1].quantity)
  }

  /** The output record of a seller that started from zero and accumulated `records`. */
  lemma StatsReportAccounts(seller: SellerInput, st: SellerStats, bonus: real, records: seq<PurchaseRecord>,
                            products: map<string, Product>)
    requires RecordsKnown(records, products)
    requires Accumulated(InitialStats(seller), st, records, products)
    ensures AccountsFor(ToReport(st, bonus), records, products)
  {
    var sold := st.productsSold;
    assert forall k :: CountOf(sold, k) == SkuCount(records, seller.id, k);
    assert DistinctSkus(sold) && AllPositive(sold);
    TopEntriesAreCounts(sold);
    TopIsComplete(sold);
    TopKeepsInvariant(sold);
  }

  /** With distinct ids, slot `m` of the aggregated statistics holds the totals of seller `m`'s records. */
  lemma SellerAccounts(d: SalesData, m: nat)
    requires d.sellers.Some? && ReferencesKnown(d)
    requires DistinctIds(d.sellers.value)
    requires Aggregated(d).Success?
    requires m < |d.sellers.value|
    ensures RecordsKnown(d.purchaseRecords, ProductIndex(d.products))
    ensures m < |Aggregated(d).value|
    ensures Accumulated(InitialStats(d.sellers.value[m]), Aggregated(d).value[m], d.purchaseRecords, ProductIndex(d.products))
  {
    var sellers := d.sellers.value;
    var stats := MapSeq(sellers, InitialStats);
    var idx := LastIndexBy(stats, SellerId);
    AggregatedWellFormed(d);
    assert Aggregated(d) == Aggregate(stats, idx, ProductIndex(d.products), d.purchaseRecords);
    AggregateAccounts(stats, idx, ProductIndex(d.products), d.purchaseRecords);
    LastIndexOfDistinct(stats, SellerId, m);
  }

  /**
   * When seller ids are distinct, every output record accounts for exactly
   * the purchase records carrying its seller id.
   */
  lemma AnalyzeAccounts(data: Option<SalesData>, options: Option<Options>)
    requires data.Some? ==> ReferencesKnown(data.value)
    requires Completes(data, options)
    requires DistinctIds(data.value.sellers.value)
    ensures RecordsKnown(data.value.purchaseRecords, ProductIndex(data.value.products))
    ensures forall i :: 0 <= i < |Analyze(data, options).value| ==>
              AccountsFor(Analyze(data, options).value[i], data.value.purchaseRecords, ProductIndex(data.value.products))
  {
    AnalyzeIsRanked(data, options);
    RankedAccounts(data.value, options.value.calculateBonus.value);
  }

  lemma RankedAccounts(d: SalesData, bonus: BonusStrategy)
    requires d.sellers.Some? && ReferencesKnown(d)
    requires DistinctIds(d.sellers.value)
    requires Aggregated(d).Success?
    ensures RecordsKnown(d.purchaseRecords, ProductIndex(d.products))
    ensures forall i :: 0 <= i < |RankAndReport(Aggregated(d).value, bonus)| ==>
              AccountsFor(RankAndReport(Aggregated(d).value, bonus)[i], d.purchaseRecords, ProductIndex(d.products))
  {
    AggregatedWellFormed(d);
    forall i | 0 <= i < |RankAndReport(Aggregated(d).value, bonus)|
      ensures AccountsFor(RankAndReport(Aggregated(d).value, bonus)[i], d.purchaseRecords, ProductIndex(d.products))
    {
      ReportAccounts(d, bonus, i);
    }
  }

  lemma ReportAccounts(d: SalesData, bonus: BonusStrategy, i: nat)
    requires d.sellers.Some? && ReferencesKnown(d)
    requires DistinctIds(d.sellers.value)
    requires Aggregated(d).Success?
    requires i < |Aggregated(d).value|
    ensures RecordsKnown(d.purchaseRecords, ProductIndex(d.products))
    ensures AccountsFor(RankAndReport(Aggregated(d).value, bonus)[i], d.purchaseRecords, ProductIndex(d.products))
  {
    var agg := Aggregated(d).value;
    var m := RankSource(agg, bonus, i);
    SellerAccounts(d, m);
    StatsReportAccounts(d.sellers.value[m], agg[m], bonus(i, |agg|, agg[m]), d.purchaseRecords, ProductIndex(d.products));
  }

  /**
   * Every output record is the record of some aggregated seller, with the
   * bonus the strategy gives that seller at the record's rank.
   */
  lemma AnalyzeBonus(data: Option<SalesData>, options: Option<Options>)
    requires data.Some? ==> ReferencesKnown(data.value)
    requires Completes(data, options)
    ensures forall i: nat :: i < |Analyze(data, options).value| ==>
              ReportOf(Analyze(data, options).value[i], Aggregated(data.value).value,
                       options.value.calculateBonus.value, i, |Analyze(data, options).value|)
  {
    AnalyzeIsRanked(data, options);
  }

  /** The default tier of an output record at rank `i` out of `total`. */
  ghost predicate DefaultTier(rep: Report, i: nat, total: nat) {
    && (i == 0 ==> rep.bonus == 0.15 * rep.profit)
    && (i == 1 || i == 2 ==> rep.bonus == 0.10 * rep.profit)
    && (i >= 3 && i == total - 1 ==> rep.bonus == 0.0)
    && (i >= 3 && i < total - 1 ==> rep.bonus == 0.05 * rep.profit)
  }

  /** The default tiers, read off the output records in rank order. */
  ghost predicate DefaultTiers(r: seq<Report>) {
    forall i: nat :: i < |r| ==> DefaultTier(r[i], i, |r|)
  }

  ghost predicate ProfitsNonNegative(r: seq<Report>) {
    forall i :: 0 <= i < |r| ==> r[i].profit >= 0.0
  }

  ghost predicate BonusesNonIncreasing(r: seq<Report>) {
    forall i, j :: 0 <= i < j < |r| ==> r[i].bonus >= r[j].bonus
  }

  lemma RankedDefaultBonus(agg: seq<SellerStats>)
    ensures DefaultTiers(RankAndReport(agg, BonusByProfit))
    ensures ProfitsNonNegative(RankAndReport(agg, BonusByProfit)) ==> BonusesNonIncreasing(RankAndReport(agg, BonusByProfit))
  {
    var ranked := SortDesc(agg, ProfitKey);
    assert RankAndReport(agg, BonusByProfit) == ReportRanked(ranked, BonusByProfit);
    RankedDefaultTiers(ranked);
    RankedDefaultOrdered(ranked);
  }

  /** Every record of a ranking carries the default tier of its rank. */
  lemma RankedDefaultTiers(ranked: seq<SellerStats>)
    ensures DefaultTiers(ReportRanked(ranked, BonusByProfit))
  {
    var r := ReportRanked(ranked, BonusByProfit);
    forall i: nat | i < |r| ensures DefaultTier(r[i], i, |r|) {
      assert r[i] == ToReport(ranked[i], BonusByProfit(i, |ranked|, ranked[i]));
    }
  }

  /** Along a ranking by profit with no negative profit, the default bonuses never increase. */
  lemma RankedDefaultOrdered(ranked: seq<SellerStats>)
    requires SortedDesc(ranked, ProfitKey)
    ensures ProfitsNonNegative(ReportRanked(ranked, BonusByProfit)) ==> BonusesNonIncreasing(ReportRanked(ranked, BonusByProfit))
  {
    var r := ReportRanked(ranked, BonusByProfit);
    if ProfitsNonNegative(r) {
      forall i, j | 0 <= i < j < |r| ensures r[i].bonus >= r[j].bonus {
        assert r[j].profit == ranked[j].profit >= 0.0;
        assert ProfitKey(ranked[i]) >= ProfitKey(ranked[j]);
        BonusNonIncreasing(i, j, |ranked|, ranked[i], ranked[j]);
      }
    }
  }

  /**
   * With the default strategy the bonus of rank 0 is 15% of profit, of ranks
   * 1 and 2 10%, of a later last rank nothing and of the others 5%; when no
   * profit is negative, the bonuses never increase down the ranking.
   */
  lemma AnalyzeDefaultBonus(data: Option<SalesData>, options: Option<Options>)
    requires data.Some? ==> ReferencesKnown(data.value)
    requires Completes(data, options)
    requires options.value.calculateBonus == Some(BonusByProfit)
    ensures DefaultTiers(Analyze(data, options).value)
    ensures ProfitsNonNegative(Analyze(data, options).value) ==> BonusesNonIncreasing(Analyze(data, options).value)
  {
    AnalyzeIsRanked(data, options);
    RankedDefaultBonus(Aggregated(data.value).value);
  }

  /** A successful run ranks the aggregated statistics with the caller's bonus strategy. */
  lemma AnalyzeIsRanked(data: Option<SalesData>, options: Option<Options>)
    requires data.Some? ==> ReferencesKnown(data.value)
    requires Completes(data, options)
    ensures Aggregated(data.value).Success?
    ensures Analyze(data, options).value == RankAndReport(Aggregated(data.value).value, options.value.calculateBonus.value)
  {
    assert Analyze(data, options) == Run(data.value, options.value.calculateBonus.value);
  }

  /**
   * Ties keep the input order: the records of one profit, bonus aside, are
   * the aggregated sellers with that profit, in the order the sellers were
   * given, because the ranking sort is stable.
   */
  lemma AnalyzeTiesInInputOrder(data: Option<SalesData>, options: Option<Options>, p: real)
    requires data.Some? ==> ReferencesKnown(data.value)
    requires Completes(data, options)
    ensures Aggregated(data.value).Success?
    ensures MapSeq(WithKey(Analyze(data, options).value, ReportProfit, p), WithoutBonus)
            == MapSeq(WithKey(Aggregated(data.value).value, ProfitKey, p), Unranked)
  {
    AnalyzeIsRanked(data, options);
    RankedTies(Aggregated(data.value).value, options.value.calculateBonus.value, p);
  }

  /** The ranking keeps the sellers of one profit in their aggregated order. */
  lemma RankedTies(agg: seq<SellerStats>, bonus: BonusStrategy, p: real)
    ensures MapSeq(WithKey(RankAndReport(agg, bonus), ReportProfit, p), WithoutBonus)
            == MapSeq(WithKey(agg, ProfitKey, p), Unranked)
  {
    var ranked := SortDesc(agg, ProfitKey);
    assert RankAndReport(agg, bonus) == ReportRanked(ranked, bonus);
    ProjectedTies(ReportRanked(ranked, bonus), ranked, p);
    SortDescIsStable(agg, ProfitKey, p);
  }

  /** Records that, bonus aside, are the statistics' records have the same ties, in the same order. */
  lemma {:induction false} ProjectedTies(r: seq<Report>, s: seq<SellerStats>, p: real)
    requires |r| == |s|
    requires forall i :: 0 <= i < |r| ==> WithoutBonus(r[i]) == Unranked(s[i])
    ensures MapSeq(WithKey(r, ReportProfit, p), WithoutBonus) == MapSeq(WithKey(s, ProfitKey, p), Unranked)
  {
    if |r| > 0 {
      assert WithoutBonus(r[0]) == Unranked(s[0]);
      assert ReportProfit(r[0]) == ProfitKey(s[0]);
      ProjectedTies(r[1..], s[1..], p);
      if ReportProfit(r[0]) == p {
        MapSeqCons(r[0], WithKey(r[1..], ReportProfit, p), WithoutBonus);
        MapSeqCons(s[0], WithKey(s[1..], ProfitKey, p), Unranked);
      }
    }
  }

  /** No purchase record names seller `id`. */
  ghost predicate NoRecordOf(records: seq<PurchaseRecord>, id: string) {
    forall k :: 0 <= k < |records| ==> records[k].sellerId != id
  }

  /** Over records that never name `id`, every reference total of `id` is zero. */
  lemma {:induction false} UnnamedTotals(records: seq<PurchaseRecord>, id: string, products: map<string, Product>)
    requires RecordsKnown(records, products)
    requires NoRecordOf(records, id)
    ensures RecordCount(records, id) == 0 && AmountTotal(records, id) == 0.0
    ensures ProfitTotal(records, id, products) == 0.0
    ensures forall sku :: SkuCount(records, id, sku) == 0
  {
    if |records| > 0 {
      assert records[0].sellerId != id;
      assert NoRecordOf(records[1..], id) by {
        forall k | 0 <= k < |records[1..]| ensures records[1..][k].sellerId != id {
          assert records[1..][k] == records[k + 1];
        }
      }
      UnnamedTotals(records[1..], id, products);
    }
  }

  /** A record that accounts for no purchase records has zero totals and no top products. */
  lemma UnsoldReport(rep: Report, records: seq<PurchaseRecord>, products: map<string, Product>)
    requires RecordsKnown(records, products)
    requires AccountsFor(rep, records, products)
    requires NoRecordOf(records, rep.sellerId)
    ensures rep.salesCount == 0 && rep.revenue == 0.0 && rep.profit == 0.0 && rep.topProducts == []
  {
    UnnamedTotals(records, rep.sellerId, products);
    if |rep.topProducts| > 0 {
      PositiveEntry(rep.topProducts);
      assert false;
    }
  }

  /** A non-empty list with positive counts holds an entry with a positive count. */
  lemma PositiveEntry(top: seq<ProductCount>)
    requires AllPositive(top) && |top| > 0
    ensures exists e :: e in top && e.quantity > 0
  {
    assert top[0] in top;
  }

  /**
   * A seller that no purchase record names is reported with zero sales,
   * zero revenue, zero profit and no top products: the model's reading of
   * the aggregates the code never assigns for such a seller.
   */
  lemma AnalyzeUnsoldSeller(data: Option<SalesData>, options: Option<Options>)
    requires data.Some? ==> ReferencesKnown(data.value)
    requires Completes(data, options)
    requires DistinctIds(data.value.sellers.value)
    ensures forall i :: (0 <= i < |Analyze(data, options).value|
                         && NoRecordOf(data.value.purchaseRecords, Analyze(data, options).value[i].sellerId)) ==>
              var rep := Analyze(data, options).value[i];
              rep.salesCount == 0 && rep.revenue == 0.0 && rep.profit == 0.0 && rep.topProducts == []
  {
    AnalyzeAccounts(data, options);
    var r := Analyze(data, options).value;
    var products := ProductIndex(data.value.products);
    forall i | 0 <= i < |r| && NoRecordOf(data.value.purchaseRecords, r[i].sellerId)
      ensures r[i].salesCount == 0 && r[i].revenue == 0.0 && r[i].profit == 0.0 && r[i].topProducts == []
    {
      UnsoldReport(r[i], data.value.purchaseRecords, products);
    }
  }
}

=== FILE: sorting.dfy ===
/**
 * The comparator sort of the report (`sortHelper` with order 'desc'):
 * a stable sort by a numeric key, largest key first. JavaScript's
 * `sort` and `toSorted` are stable, so elements with equal keys keep
 * their input order; the insertion sort below has the same result.
 */
module Sorting {

  ghost predicate SortedDesc<T>(s: seq<T>, key: T -> real) {
    forall i, j :: 0 <= i < j < |s| ==> key(s[i]) >= key(s[j])
  }

  /** The elements of `s` whose key is `k`, in their order in `s`. */
  function WithKey<T>(s: seq<T>, key: T -> real, k: real): seq<T> {
    if |s| == 0 then []
    else if key(s[0]) == k then [s[0]] + WithKey(s[1..], key, k)
    else WithKey(s[1..], key, k)
  }

  /** Applies `f` to every element. */
  function MapSeq<T, U>(s: seq<T>, f: T -> U): (r: seq<U>)
    ensures |r| == |s|
    ensures forall i :: 0 <= i < |s| ==> r[i] == f(s[i])
  {
    if |s| == 0 then [] else [f(s[0])] + MapSeq(s[1..], f)
  }

  /** A sequence holding the elements of `t` and `x` has no key above a bound that all of them respect. */
  lemma BoundedByMultiset<T>(r: seq<T>, t: seq<T>, x: T, key: T -> real, b: real)
    requires multiset(r) == multiset(t) + multiset{x}
    requires key(x) <= b
    requires forall i :: 0 <= i < |t| ==> key(t[i]) <= b
    ensures forall j :: 0 <= j < |r| ==> key(r[j]) <= b
  {
    forall j | 0 <= j < |r| ensures key(r[j]) <= b {
      assert r[j] in multiset(r);
      if r[j] != x {
        assert r[j] in multiset(t);
        var i :| 0 <= i < |t| && t[i] == r[j];
      }
    }
  }

  /** Places `x` before the first element whose key does not exceed its own. */
  function Insert<T>(x: T, s: seq<T>, key: T -> real): (r: seq<T>)
    requires SortedDesc(s, key)
    ensures SortedDesc(r, key)
    ensures multiset(r) == multiset(s) + multiset{x}
    ensures |r| == |s| + 1
  {
    if |s| == 0 || key(x) >= key(s[0]) then [x] + s
    else
      var rest := Insert(x, s[1..], key);
      BoundedByMultiset(rest, s[1..], x, key, key(s[0]));
      assert s == [s[0]] + s[1..];
      [s[0]] + rest
  }

  /** Stable sort, largest key first. */
  function SortDesc<T>(s: seq<T>, key: T -> real): (r: seq<T>)
    ensures SortedDesc(r, key)
    ensures multiset(r) == multiset(s)
    ensures |r| == |s|
  {
    if |s| == 0 then []
    else
      assert s == [s[0]] + s[1..];
      Insert(s[0], SortDesc(s[1..], key), key)
  }

  lemma MapSeqCons<T, U>(a: T, t: seq<T>, f: T -> U)
    ensures MapSeq([a] + t, f) == [f(a)] + MapSeq(t, f)
  {
    assert ([a] + t)[1..] == t;
  }

  lemma {:induction false} InsertKeepsKeyOrder<T>(x: T, s: seq<T>, key: T -> real, k: real)
    requires SortedDesc(s, key)
    ensures WithKey(Insert(x, s, key), key, k) == if key(x) == k then [x] + WithKey(s, key, k) else WithKey(s, key, k)
  {
    if |s| == 0 || key(x) >= key(s[0]) {
      assert Insert(x, s, key) == [x] + s;
      assert ([x] + s)[1..] == s;
    } else {
      var rest := Insert(x, s[1..], key);
      assert Insert(x, s, key) == [s[0]] + rest;
      assert ([s[0]] + rest)[1..] == rest;
      InsertKeepsKeyOrder(x, s[1..], key, k);
    }
  }

  /** Stability: among elements with the same key, the sorted order is the input order. */
  lemma {:induction false} SortDescIsStable<T>(s: seq<T>, key: T -> real, k: real)
    ensures WithKey(SortDesc(s, key), key, k) == WithKey(s, key, k)
  {
    if |s| > 0 {
      SortDescIsStable(s[1..], key, k);
      InsertKeepsKeyOrder(s[0], SortDesc(s[1..], key), key, k);
    }
  }

  lemma {:induction false} InsertMapped<T, U>(x: T, s: seq<T>, key: T -> real, f: T -> U)
    requires SortedDesc(s, key)
    ensures multiset(MapSeq(Insert(x, s, key), f)) == multiset(MapSeq(s, f)) + multiset{f(x)}
  {
    if |s| == 0 || key(x) >= key(s[0]) {
      assert Insert(x, s, key) == [x] + s;
      MapSeqCons(x, s, f);
    } else {
      InsertBehind(x, s, key);
      InsertMapped(x, s[1..], key, f);
      MappedBehindHead(s, Insert(x, s, key), Insert(x, s[1..], key), f, f(x));
    }
  }

  /**
   * `ins` is `s`'s head followed by `rest`, and `rest` maps to the tail's
   * images plus `b`; then `ins` maps to `s`'s images plus `b`.
   */
  lemma MappedBehindHead<T, U>(s: seq<T>, ins: seq<T>, rest: seq<T>, f: T -> U, b: U)
    requires |s| > 0 && ins == [s[0]] + rest
    requires multiset(MapSeq(rest, f)) == multiset(MapSeq(s[1..], f)) + multiset{b}
    ensures multiset(MapSeq(ins, f)) == multiset(MapSeq(s, f)) + multiset{b}
  {
    assert ins[1..] == rest;
    MultisetMapHead(ins, f);
    MultisetMapHead(s, f);
    AddOneBehind(multiset(MapSeq(ins, f)), multiset(MapSeq(s, f)),
                 multiset(MapSeq(rest, f)), multiset(MapSeq(s[1..], f)), f(s[0]), b);
  }

  lemma InsertBehind<T>(x: T, s: seq<T>, key: T -> real)
    requires SortedDesc(s, key)
    requires |s| > 0 && key(x) < key(s[0])
    ensures Insert(x, s, key) == [s[0]] + Insert(x, s[1..], key)
  {
  }

  /** Multiset bookkeeping for inserting `b` behind a common head `a`. */
  lemma AddOneBehind<U>(m1: multiset<U>, m2: multiset<U>, r: multiset<U>, t: multiset<U>, a: U, b: U)
    requires m1 == multiset{a} + r && r == t + multiset{b} && m2 == multiset{a} + t
    ensures m1 == m2 + multiset{b}
  {
  }

  lemma MultisetMapHead<T, U>(s: seq<T>, f: T -> U)
    requires |s| > 0
    ensures multiset(MapSeq(s, f)) == multiset{f(s[0])} + multiset(MapSeq(s[1..], f))
  {
    assert MapSeq(s, f) == [f(s[0])] + MapSeq(s[1..], f);
  }

  /** Sorting permutes any projection of the elements the same way it permutes the elements. */
  lemma {:induction false} SortDescMapped<T, U>(s: seq<T>, key: T -> real, f: T -> U)
    ensures multiset(MapSeq(SortDesc(s, key), f)) == multiset(MapSeq(s, f))
  {
    if |s| > 0 {
      SortDescMapped(s[1..], key, f);
      InsertMapped(s[0], SortDesc(s[1..], key), key, f);
    }
  }

  /**
   * Cutting a sorted sequence after `n` elements: the cut-off elements are
   * exactly what the prefix leaves of the whole, and none has a larger key
   * than the last element kept.
   */
  lemma SplitSorted<T>(s: seq<T>, whole: multiset<T>, key: T -> real, n: nat)
    requires SortedDesc(s, key)
    requires multiset(s) == whole
    requires 0 < n <= |s| || n == |s|
    ensures SortedDesc(s[..n], key)
    ensures s[..n] <= s
    ensures multiset(s[..n]) <= whole
    ensures forall e :: e in whole - multiset(s[..n]) ==> 0 < n < |s| && key(e) <= key(s[n - 1])
  {
    assert s == s[..n] + s[n..];
    MultisetCut(whole, multiset(s[..n]), multiset(s[n..]));
    CutBelow(s, key, n);
  }

  lemma MultisetCut<T>(whole: multiset<T>, kept: multiset<T>, cut: multiset<T>)
    requires whole == kept + cut
    ensures kept <= whole && whole - kept == cut
  {
  }

  /** No element after the first `n` of a sorted sequence has a larger key than the `n`-th. */
  lemma CutBelow<T>(s: seq<T>, key: T -> real, n: nat)
    requires SortedDesc(s, key)
    requires 0 < n <= |s| || n == |s|
    ensures forall e :: e in multiset(s[n..]) ==> 0 < n < |s| && key(e) <= key(s[n - 1])
  {
    var cut := s[n..];
    forall e | e in multiset(cut) ensures 0 < n < |s| && key(e) <= key(s[n - 1]) {
      assert e in cut;
      var j :| 0 <= j < |cut| && cut[j] == e;
      assert s[n + j] == e;
    }
  }
}

=== FILE: top_products.dfy ===
/**
 * A seller's `products_sold` object and the `top_products` list derived
 * from it. The object is kept as a list of (sku, count) entries in the
 * order the skus were first sold, which is the order `Object.entries`
 * returns them in.
 */
module TopProducts {
  import opened Model
  import opened Sorting

  /** How many entries `top_products` keeps. */
  const TopCount: nat := 10

  /** The keys of `products_sold` in enumeration order. */
  function Skus(sold: seq<ProductCount>): seq<string> {
    if |sold| == 0 then [] else [sold[0].sku] + Skus(sold[1..])
  }

  ghost predicate DistinctSkus(sold: seq<ProductCount>) {
    forall i, j :: 0 <= i < j < |sold| ==> sold[i].sku != sold[j].sku
  }

  /** Every entry was created by a sale, so every stored count is at least one. */
  ghost predicate AllPositive(sold: seq<ProductCount>) {
    forall i :: 0 <= i < |sold| ==> sold[i].quantity > 0
  }

  /** `products_sold[sku]`, where an absent key reads as 0. */
  function CountOf(sold: seq<ProductCount>, sku: string): nat {
    if |sold| == 0 then 0
    else if sold[0].sku == sku then sold[0].quantity
    else CountOf(sold[1..], sku)
  }

  /** `products_sold[sku] += 1`, creating the key at the end when it is absent. */
  function Bump(sold: seq<ProductCount>, sku: string): (r: seq<ProductCount>)
    ensures forall k :: CountOf(r, k) == CountOf(sold, k) + (if k == sku then 1 else 0)
    ensures Skus(r) == if sku in Skus(sold) then Skus(sold) else Skus(sold) + [sku]
  {
    if |sold| == 0 then [ProductCount(sku, 1)]
    else if sold[0].sku == sku then
      var r := [sold[0].(quantity := sold[0].quantity + 1)] + sold[1..];
      assert r[1..] == sold[1..];
      r
    else
      var rest := Bump(sold[1..], sku);
      var r := [sold[0]] + rest;
      assert r[1..] == rest;
      r
  }

  /** Bumping keeps the keys distinct and the counts positive. */
  lemma {:induction false} BumpKeepsInvariant(sold: seq<ProductCount>, sku: string)
    requires DistinctSkus(sold) && AllPositive(sold)
    ensures DistinctSkus(Bump(sold, sku)) && AllPositive(Bump(sold, sku))
  {
    var r := Bump(sold, sku);
    if |sold| > 0 && sold[0].sku == sku {
      assert r == [sold[0].(quantity := sold[0].quantity + 1)] + sold[1..];
      forall i, j | 0 <= i < j < |r| ensures r[i].sku != r[j].sku {
        assert r[j] == sold[j];
      }
    } else if |sold| > 0 {
      var rest := Bump(sold[1..], sku);
      assert r == [sold[0]] + rest;
      BumpKeepsInvariant(sold[1..], sku);
      BumpKeepsHeadApart(sold, sku);
      forall i, j | 0 <= i < j < |r| ensures r[i].sku != r[j].sku {
        assert r[j] == rest[j - 1];
        if i > 0 {
          assert r[i] == rest[i - 1];
        }
      }
    }
  }

  /** Bumping the tail never brings in the head's key. */
  lemma BumpKeepsHeadApart(sold: seq<ProductCount>, sku: string)
    requires DistinctSkus(sold) && |sold| > 0 && sold[0].sku != sku
    ensures forall j :: 0 <= j < |Bump(sold[1..], sku)| ==> Bump(sold[1..], sku)[j].sku != sold[0].sku
  {
    var rest := Bump(sold[1..], sku);
    SkusIndex(sold[1..]);
    SkusIndex(rest);
    assert sold[0].sku !in Skus(sold[1..]);
    forall j | 0 <= j < |rest| ensures rest[j].sku != sold[0].sku {
      assert rest[j].sku == Skus(rest)[j];
    }
  }

  lemma {:induction false} SkusIndex(sold: seq<ProductCount>)
    ensures |Skus(sold)| == |sold|
    ensures forall i :: 0 <= i < |sold| ==> Skus(sold)[i] == sold[i].sku
  {
    if |sold| > 0 {
      SkusIndex(sold[1..]);
    }
  }

  /**
   * The entries ordered by count, largest first (ties in first-sale order),
   * cut to the first ten.
   */
  function Top(sold: seq<ProductCount>): (r: seq<ProductCount>)
    ensures |r| == if |sold| < TopCount then |sold| else TopCount
    ensures SortedDesc(r, QuantityKey)
    ensures r <= SortDesc(sold, QuantityKey)
    ensures multiset(r) <= multiset(sold)
    ensures forall e :: e in multiset(sold) - multiset(r) ==>
              |r| == TopCount && e.quantity <= r[TopCount - 1].quantity
  {
    var sorted := SortDesc(sold, QuantityKey);
    var n := if |sorted| < TopCount then |sorted| else TopCount;
    SplitSorted(sorted, multiset(sold), QuantityKey, n);
    sorted[..n]
  }

  /** With distinct keys no entry occurs twice. */
  lemma {:induction false} DistinctOnce(sold: seq<ProductCount>, e: ProductCount)
    requires DistinctSkus(sold)
    ensures multiset(sold)[e] <= 1
  {
    if |sold| > 0 {
      assert sold == [sold[0]] + sold[1..];
      assert DistinctSkus(sold[1..]) by {
        forall i, j | 0 <= i < j < |sold[1..]| ensures sold[1..][i].sku != sold[1..][j].sku {
          assert sold[1..][i] == sold[i + 1] && sold[1..][j] == sold[j + 1];
        }
      }
      DistinctOnce(sold[1..], e);
      if sold[0] == e {
        forall j | 0 <= j < |sold[1..]| ensures sold[1..][j] != e {
          assert sold[1..][j] == sold[j + 1];
        }
        assert e !in sold[1..];
      }
    }
  }

  /** Entries drawn from a list with distinct keys and positive counts have both properties too. */
  lemma SubOfDistinct(top: seq<ProductCount>, sold: seq<ProductCount>)
    requires multiset(top) <= multiset(sold)
    requires DistinctSkus(sold) && AllPositive(sold)
    ensures DistinctSkus(top) && AllPositive(top)
  {
    forall i | 0 <= i < |top| ensures top[i].quantity > 0 {
      assert top[i] in multiset(top);
      assert top[i] in sold;
    }
    forall i, j | 0 <= i < j < |top| ensures top[i].sku != top[j].sku {
      SameKeyApart(top, sold, i, j);
    }
  }

  /** Two positions of `top` with one key would need two entries of `sold` with that key. */
  lemma SameKeyApart(top: seq<ProductCount>, sold: seq<ProductCount>, i: nat, j: nat)
    requires multiset(top) <= multiset(sold) && DistinctSkus(sold)
    requires i < j < |top|
    ensures top[i].sku != top[j].sku
  {
    if top[i].sku == top[j].sku {
      assert top[i] in multiset(top) && top[j] in multiset(top);
      KeyUnique(sold, top[i], top[j]);
      assert top == top[..j] + top[j..];
      assert top[i] in top[..j] && top[j] in top[j..];
      assert multiset(top)[top[i]] == multiset(top[..j])[top[i]] + multiset(top[j..])[top[i]];
      DistinctOnce(sold, top[i]);
      assert false;
    }
  }

  /** With distinct keys an entry is determined by its key. */
  lemma KeyUnique(sold: seq<ProductCount>, x: ProductCount, y: ProductCount)
    requires DistinctSkus(sold) && x in sold && y in sold && x.sku == y.sku
    ensures x == y
  {
    var a :| 0 <= a < |sold| && sold[a] == x;
    var b :| 0 <= b < |sold| && sold[b] == y;
    assert !(a < b) && !(b < a);
  }

  /** The kept entries of a well-formed `products_sold` have distinct keys and positive counts. */
  lemma TopKeepsInvariant(sold: seq<ProductCount>)
    requires DistinctSkus(sold) && AllPositive(sold)
    ensures DistinctSkus(Top(sold)) && AllPositive(Top(sold))
  {
    SubOfDistinct(Top(sold), sold);
  }

  /** A count read back from a list with distinct keys is the quantity of the entry holding that key. */
  lemma {:induction false} CountOfEntry(sold: seq<ProductCount>, i: nat)
    requires DistinctSkus(sold)
    requires i < |sold|
    ensures CountOf(sold, sold[i].sku) == sold[i].quantity
  {
    if i > 0 {
      CountOfEntry(sold[1..], i - 1);
    }
  }

  /** A positive count means some entry holds the key. */
  lemma {:induction false} CountOfPositive(sold: seq<ProductCount>, sku: string)
    requires CountOf(sold, sku) > 0
    ensures exists i :: 0 <= i < |sold| && sold[i] == ProductCount(sku, CountOf(sold, sku))
  {
    if sold[0].sku != sku {
      CountOfPositive(sold[1..], sku);
      var i :| 0 <= i < |sold[1..]| && sold[1..][i] == ProductCount(sku, CountOf(sold, sku));
      assert sold[i + 1] == ProductCount(sku, CountOf(sold, sku));
    }
  }

  /** With distinct keys, every kept entry carries the full count of its sku. */
  lemma TopEntriesAreCounts(sold: seq<ProductCount>)
    requires DistinctSkus(sold)
    ensures forall e :: e in Top(sold) ==> e.quantity == CountOf(sold, e.sku)
  {
    var top := Top(sold);
    forall e | e in top ensures e.quantity == CountOf(sold, e.sku) {
      assert e in multiset(top);
      assert e in multiset(sold);
      var p :| 0 <= p < |sold| && sold[p] == e;
      CountOfEntry(sold, p);
    }
  }

  /** A sku with a positive count is left out only from a full list, and only if it sold no more than the last entry. */
  lemma TopIsComplete(sold: seq<ProductCount>)
    ensures forall sku :: CountOf(sold, sku) > 0 && sku !in Skus(Top(sold)) ==>
              |Top(sold)| == TopCount && CountOf(sold, sku) <= Top(sold)[TopCount - 1].quantity
  {
    forall sku | CountOf(sold, sku) > 0 && sku !in Skus(Top(sold))
      ensures |Top(sold)| == TopCount && CountOf(sold, sku) <= Top(sold)[TopCount - 1].quantity
    {
      LeftOutEntry(sold, sku);
    }
  }

  /** The entry of a sku that the top list does not name is among the entries the cut dropped. */
  lemma LeftOutEntry(sold: seq<ProductCount>, sku: string)
    requires CountOf(sold, sku) > 0 && sku !in Skus(Top(sold))
    ensures |Top(sold)| == TopCount && CountOf(sold, sku) <= Top(sold)[TopCount - 1].quantity
  {
    var top := Top(sold);
    var e := ProductCount(sku, CountOf(sold, sku));
    CountOfPositive(sold, sku);
    var p :| 0 <= p < |sold| && sold[p] == e;
    assert multiset(sold)[e] > 0;
    SkusIndex(top);
    forall j | 0 <= j < |top| ensures top[j] != e {
      assert top[j].sku == Skus(top)[j];
    }
    assert multiset(top)[e] == 0;
    var rest := multiset(sold) - multiset(top);
    assert rest[e] > 0;
    assert e in rest;
  }
}

=== FILE: validation.dfy ===
/**
 * Range checks of a purchase line and the arithmetic of one line:
 * discount multiplier, revenue and profit.
 */
module Validation {
  import opened Wrappers
  import opened Model

  predicate IsValidPercent(percent: real) {
    0.0 <= percent <= 100.0
  }

  predicate IsNotNegative(num: real) {
    num >= 0.0
  }

  /** The three conditions a purchase line must meet, independent of the order they are checked in. */
  ghost predicate WellFormedLine(line: PurchaseLine) {
    && 0.0 <= line.discount <= 100.0
    && 0.0 <= line.salePrice
    && 0.0 <= line.quantity
  }

  /** Price before the discount: sale price times quantity. */
  function Gross(line: PurchaseLine): real {
    line.salePrice * line.quantity
  }

  /** The multiplier that a discount in percent leaves of a price. */
  function Subtotal(discount: real): (r: Result<real, Error>)
    ensures r.Success? <==> 0.0 <= discount <= 100.0
    ensures r.Failure? ==> r.error == InvalidDiscount(discount)
    ensures r.Success? ==> 0.0 <= r.value <= 1.0
    ensures r.Success? ==> discount == 100.0 * (1.0 - r.value)
    ensures discount == 0.0 ==> r == Success(1.0)
    ensures discount == 100.0 ==> r == Success(0.0)
  {
    if !IsValidPercent(discount) then Failure(InvalidDiscount(discount))
    else Success(1.0 - discount / 100.0)
  }

  /** Checks discount, then sale price, then quantity; the first failed check is the error. */
  function ValidatePurchase(line: PurchaseLine): (r: Outcome<Error>)
    ensures r.Pass? <==> WellFormedLine(line)
    ensures !(0.0 <= line.discount <= 100.0) ==> r == Fail(InvalidDiscount(line.discount))
    ensures (0.0 <= line.discount <= 100.0 && line.salePrice < 0.0) ==>
              r == Fail(InvalidSalePrice(line.salePrice))
    ensures (0.0 <= line.discount <= 100.0 && 0.0 <= line.salePrice && line.quantity < 0.0) ==>
              r == Fail(InvalidQuantity(line.quantity))
  {
    if !IsValidPercent(line.discount) then Fail(InvalidDiscount(line.discount))
    else if !IsNotNegative(line.salePrice) then Fail(InvalidSalePrice(line.salePrice))
    else if !IsNotNegative(line.quantity) then Fail(InvalidQuantity(line.quantity))
    else Pass
  }

  /** Revenue of one line: the discounted price times the quantity, after validating the line. */
  function SimpleRevenue(line: PurchaseLine): (r: Result<real, Error>)
    ensures r.Success? <==> WellFormedLine(line)
    ensures r.Failure? ==> ValidatePurchase(line) == Fail(r.error)
    ensures r.Success? ==> 0.0 <= r.value <= Gross(line)
    ensures r.Success? ==> r.value == Gross(line) - Gross(line) * line.discount / 100.0
  {
    match ValidatePurchase(line)
    case Fail(e) => Failure(e)
    case Pass =>
      var subtotal := Subtotal(line.discount).value;
      var revenue := line.salePrice * subtotal * line.quantity;
      assert 0.0 <= Gross(line);
      assert revenue == Gross(line) * subtotal;
      ScaleWithin(Gross(line), subtotal);
      Success(revenue)
  }

  /** A non-negative amount scaled by a factor in [0, 1] stays between 0 and the amount. */
  lemma ScaleWithin(g: real, f: real)
    requires 0.0 <= g && 0.0 <= f <= 1.0
    ensures 0.0 <= g * f <= g
  {
    assert g * f <= g * 1.0 by { assert g * (1.0 - f) >= 0.0; }
  }

  /** Profit of one line in closed form: discounted revenue minus purchase cost. */
  ghost function LineMargin(line: PurchaseLine, product: Product): real {
    Gross(line) - Gross(line) * line.discount / 100.0 - product.purchasePrice * line.quantity
  }

  /** Profit of one line: its revenue minus the purchase cost of the quantity sold. */
  function SimpleProfit(line: PurchaseLine, product: Product): (r: Result<real, Error>)
    ensures r.Success? <==> WellFormedLine(line)
    ensures r.Failure? ==> ValidatePurchase(line) == Fail(r.error)
    ensures r.Success? ==> r.value + product.purchasePrice * line.quantity == SimpleRevenue(line).value
    ensures r.Success? ==> r.value == LineMargin(line, product)
    ensures r.Success? ==> r.value <= (line.salePrice - product.purchasePrice) * line.quantity
  {
    var cost := product.purchasePrice * line.quantity;
    match SimpleRevenue(line)
    case Failure(e) => Failure(e)
    case Success(revenue) => Success(revenue - cost)
  }
}

=== FILE: worked_example.dfy ===
/** A run on one seller, one product and one receipt, computed through the whole pipeline. */
module WorkedExample {
  import opened Wrappers
  import opened Model
  import opened Validation
  import opened Sorting
  import opened Bonus
  import opened TopProducts
  import opened Indexing
  import opened Aggregation
  import opened Analysis

  function ExampleData(): SalesData {
    SalesData(
      Some([SellerInput("seller_1", "Ann", "Lee")]),
      [Product("SKU_001", 10.0)],
      [PurchaseRecord("seller_1", 40.0, [PurchaseLine("SKU_001", 0.0, 20.0, 2.0)])])
  }

  function ExampleOptions(): Options {
    Options(Some((line: PurchaseLine, product: Product) => 0.0), Some(BonusByProfit))
  }

  /** The statistics of the seller after the pass over the one receipt. */
  function ExampleStats(): SellerStats {
    SellerStats("seller_1", "Ann Lee", 1, 40.0, 20.0, [ProductCount("SKU_001", 1)])
  }

  lemma ExampleReferences()
    ensures ReferencesKnown(ExampleData())
  {
    var seller := SellerInput("seller_1", "Ann", "Lee");
    var product := Product("SKU_001", 10.0);
    assert InputId([seller][0]) in KeysOf([seller], InputId);
    assert ProductSku([product][0]) in KeysOf([product], ProductSku);
  }

  lemma ExampleIndexes()
    ensures MapSeq([SellerInput("seller_1", "Ann", "Lee")], InitialStats) == [SellerStats("seller_1", "Ann Lee", 0, 0.0, 0.0, [])]
    ensures LastIndexBy([SellerStats("seller_1", "Ann Lee", 0, 0.0, 0.0, [])], SellerId) == map["seller_1" := 0]
    ensures ProductIndex([Product("SKU_001", 10.0)]) == map["SKU_001" := Product("SKU_001", 10.0)]
  {
    assert "Ann" + " " + "Lee" == "Ann Lee";
    var product := Product("SKU_001", 10.0);
    assert ProductSku([product][0]) in KeysOf([product], ProductSku);
  }

  /** Two units at 20 with no discount, bought at 10: revenue 40, profit 20. */
  lemma ExampleLine()
    ensures SimpleRevenue(PurchaseLine("SKU_001", 0.0, 20.0, 2.0)) == Success(40.0)
    ensures SimpleProfit(PurchaseLine("SKU_001", 0.0, 20.0, 2.0), Product("SKU_001", 10.0)) == Success(20.0)
  {
    var line := PurchaseLine("SKU_001", 0.0, 20.0, 2.0);
    assert ValidatePurchase(line) == Pass;
    assert Subtotal(0.0) == Success(1.0);
  }

  /** The one line adds a profit of 20 and counts its product once. */
  lemma ExampleItems()
    ensures ItemsKnown([PurchaseLine("SKU_001", 0.0, 20.0, 2.0)], map["SKU_001" := Product("SKU_001", 10.0)])
    ensures ApplyItems(SellerStats("seller_1", "Ann Lee", 1, 40.0, 0.0, []), [PurchaseLine("SKU_001", 0.0, 20.0, 2.0)],
                       map["SKU_001" := Product("SKU_001", 10.0)])
            == Success(ExampleStats())
  {
    ExampleLine();
    assert Bump([], "SKU_001") == [ProductCount("SKU_001", 1)];
  }

  /** The receipt counts one sale and 40 of revenue for the only seller. */
  lemma ExampleRecord()
    ensures Indexed([SellerStats("seller_1", "Ann Lee", 0, 0.0, 0.0, [])], map["seller_1" := 0])
    ensures ItemsKnown([PurchaseLine("SKU_001", 0.0, 20.0, 2.0)], map["SKU_001" := Product("SKU_001", 10.0)])
    ensures ApplyRecord([SellerStats("seller_1", "Ann Lee", 0, 0.0, 0.0, [])], map["seller_1" := 0],
                        map["SKU_001" := Product("SKU_001", 10.0)],
                        PurchaseRecord("seller_1", 40.0, [PurchaseLine("SKU_001", 0.0, 20.0, 2.0)]))
            == Success([ExampleStats()])
  {
    ExampleItems();
    var after := ExampleStats();
    assert [SellerStats("seller_1", "Ann Lee", 0, 0.0, 0.0, [])][0 := after] == [after];
  }

  lemma ExampleAggregated()
    ensures ReferencesKnown(ExampleData())
    ensures Aggregated(ExampleData()) == Success([ExampleStats()])
  {
    ExampleReferences();
    ExampleIndexes();
    ExampleRecord();
    var rec := PurchaseRecord("seller_1", 40.0, [PurchaseLine("SKU_001", 0.0, 20.0, 2.0)]);
    var stats := [SellerStats("seller_1", "Ann Lee", 0, 0.0, 0.0, [])];
    var products := map["SKU_001" := Product("SKU_001", 10.0)];
    assert Aggregate(stats, map["seller_1" := 0], products, [rec]) == Success([ExampleStats()]);
  }

  lemma ExampleRanked()
    ensures RankAndReport([ExampleStats()], BonusByProfit)
            == [Report("seller_1", "Ann Lee", 40.0, 20.0, 1, [ProductCount("SKU_001", 1)], 3.0)]
  {
    var after := ExampleStats();
    var sold := [ProductCount("SKU_001", 1)];
    assert SortDesc([after], ProfitKey) == [after];
    assert SortDesc(sold, QuantityKey) == sold;
    assert Top(sold) == sold;
    assert BonusByProfit(0, 1, after) == 3.0;
  }

  /**
   * One seller sells two units of a product bought at 10 for 20 each with no
   * discount, on a receipt of 40. Revenue is the receipt's 40, profit
   * 40 - 20 = 20, the bonus of the only (first and also last) rank is
   * 15% of 20, and the product is counted once: one line, not two units.
   */
  lemma OneSellerOneLine()
    ensures && ReferencesKnown(ExampleData())
            && Analyze(Some(ExampleData()), Some(ExampleOptions()))
               == Success([Report("seller_1", "Ann Lee", 40.0, 20.0, 1, [ProductCount("SKU_001", 1)], 3.0)])
  {
    ExampleAggregated();
    ExampleRanked();
  }

  /** An empty seller list is the input error, whatever the records refer to. */
  lemma EmptySellersWithRecords()
    ensures Analyze(Some(SalesData(Some([]), [], [PurchaseRecord("s1", 5.0, [])])), Some(Options(None, None)))
            == Failure(InvalidInput)
  {
  }

  /** A missing strategy is the options error, even when a record names an unknown seller. */
  lemma MissingStrategyWithUnknownSeller()
    ensures Analyze(Some(SalesData(Some([SellerInput("a", "Ann", "Lee")]), [], [PurchaseRecord("zz", 5.0, [])])),
                    Some(Options(None, None)))
            == Failure(InvalidOptions)
  {
  }
}

=== FILE: wrappers.dfy ===
/** Failure-carrying results, used for the errors the sales report can throw. */
module Wrappers {

  /** A value that may be absent: JavaScript's `undefined` or "not of the expected kind". */
  datatype Option<+T> = None | Some(value: T)

  /** A computation that either produced a value or threw an error. */
  datatype Result<+T, +E> = Success(value: T) | Failure(error: E)

  /** A check that either passed or threw an error; it produces no value. */
  datatype Outcome<+E> = Pass | Fail(error: E)
}
